=== FILE: README.md ===
# CloudMLS Telegram example: the encryption overlay, modelled in Dafny

The app is a Telegram client whose messages run through CloudMLS, so chats
can be end-to-end encrypted. This project models the deterministic core of
that overlay and proves properties about it. The core has four parts:

- **`API.call`**, the RPC client that retries on the MTProto error classes.
  On 420 FLOOD it waits and re-issues the call. On 303 SEE_OTHER it moves the
  default datacenter or sets a per-call one, then re-issues.
- **`TelegramService`**, the conversation synchronizer:
  - it turns the transport's raw records (dialogs, messages, users, chats)
    into normalised peers, messages and dialogs;
  - it derives the group id a conversation is encrypted under;
  - it computes the 31-bit change-detection hash over message ids;
  - it decrypts fetched messages and encrypts outgoing ones through CloudMLS.
- **`ChatPage`**, the chat view: the hash-gated refresh, the local echo of a
  sent message, and the colour and CSS classes of each message.
- **`Tab1Page`**, the dialog list: one encryption probe per basic group or
  direct chat, and navigation into a chat.

Parts of the app stay outside the model:

- The transport and the CloudMLS library are not visible. Their answers
  enter the model as values. A fetch is a settled or pending `Promise` value
  (`Base.Promise`). `Message.decrypt`, `Message.encrypt`, `Groups.update` and
  `Dialogs.update` are function-typed parameters.
- The RPC client runs against a *script*: the list of answers the transport
  gives to successive attempts of one call.
- Ids are natural numbers. Where the source turns one into a string, the
  model renders it in decimal (`Decimal.NatToString`). Where the source
  parses one, the model uses JS `Number` restricted to digit strings
  (`Decimal.ToNumber`).

Modules, following the program's structure:

| file | module | what it holds |
|---|---|---|
| base.dfy | `Base` | `Option`, `Result`, `Promise`, and the faults the code can throw |
| decimal.dfy | `Decimal` | decimal rendering of ids and JS `Number` on digit strings |
| jsstring.dfy | `JsString` | JS `split` with a string separator, used on RPC error messages |
| api.dfy | `Api` | `API.call` with its retry state machine, and the corrected variant |
| hashing.dfy | `ItemHash` | `calculateItemHash` |
| records.dfy | `Records` | raw and normalised records, `extractMessage`, `isOwnMessage`, `getMessageSender`, `getUserFromList`, `getTelegramInputPeer` |
| identity.dfy | `Identity` | `getGroupId` |
| sync.dfy | `Synchronizer` | `getGroupMembers`, `getDialogs`, `getMessages`, `sendMessage` |
| chat.dfy | `ChatPage` | the chat view's state, refresh, send, `getColor`, `getClasses` |
| tab1.dfy | `Tab1Page` | `loadDialogs` probing and `openChat` |

## Model

Source paths are relative to the repository root.
`telegram.service.ts` is `src/app/services/telegram-service/telegram.service.ts`.

| member | source | states |
|---|---|---|
| Decimal.NatToStringRoundTrip | src/app/services/telegram-service/telegram.service.ts:117-127 | an id rendered in decimal parses back with `Number` to the same id |
| Decimal.NatToStringInjective | src/app/services/telegram-service/telegram.service.ts:501-507 | two ids render to the same string exactly when they are equal |
| Decimal.ToNumber | src/app/services/telegram-service/telegram.service.ts:117-127 | `Number(s)` is a number exactly when `s` is all digits; the empty string gives 0 |
| JsString.FindFirst | src/app/services/telegram-service/telegram.service.ts:117-125 | the index found is an occurrence of the separator and no earlier index is one; nothing is found exactly when the separator does not occur |
| JsString.SplitJoin | src/app/services/telegram-service/telegram.service.ts:117-125 | joining `split`'s pieces with the separator rebuilds the message, and no piece contains the separator |
| JsString.SplitAroundOne | src/app/services/telegram-service/telegram.service.ts:117-125 | `x + sep + y` splits into exactly `[x, y]` when neither side holds the separator's first character |
| JsString.SplitWithout | src/app/services/telegram-service/telegram.service.ts:117 | a message without the separator is its own only piece, so piece 1 is undefined |
| Api.Reroute | src/app/services/telegram-service/telegram.service.ts:116-140 | a FLOOD error only adds waiting time; a PHONE redirect moves only the default DC to the parsed target; any other redirect sets only the per-call `dcId` |
| Api.Call | src/app/services/telegram-service/telegram.service.ts:104-147 | every attempt re-issues the same method and params; the first attempt uses the caller's routing; a resolution carries the transport's answer unchanged; an error reaches the caller only when the very first attempt fails with a code other than 420/303; a failure after a retry leaves the promise unsettled; a settled call leaves behind the routing its last attempt used |
| Api.SuccessiveAttemptsAreRerouted | src/app/services/telegram-service/telegram.service.ts:111-143 | each re-issued request follows a 420 or 303 error on the one before it, and carries that request's routing moved on by the error: unchanged after a FLOOD wait, a new default datacenter after a PHONE redirect, a per-call override after any other redirect |
| Api.OnlyRetryableAnswersAreRetried | src/app/services/telegram-service/telegram.service.ts:111-143 | every answer consumed before the last was a 420 or 303 error; a call that used up the script retried every answer |
| Api.WaitIsSumOfFloodDelays | src/app/services/telegram-service/telegram.service.ts:116-122 | the time a call waits is the sum of the `FLOOD_WAIT_` delays of the errors it consumed |
| Api.RoutingChangesOnlyByRedirect | src/app/services/telegram-service/telegram.service.ts:124-140 | the default DC moves only through a PHONE redirect, and the per-call `dcId` changes only through a redirect of another kind |
| Api.FloodWaitParsesSeconds | src/app/services/telegram-service/telegram.service.ts:116-119 | `FLOOD_WAIT_<n>` makes the client wait `n * 1000` ms |
| Api.FloodWithoutMarkerRetriesAtOnce | src/app/services/telegram-service/telegram.service.ts:116-121 | a 420 message without `FLOOD_WAIT_` gives a NaN delay, so the retry fires at once |
| Api.MigrateTargetParses | src/app/services/telegram-service/telegram.service.ts:124-127 | `<kind>_MIGRATE_<n>` yields kind `<kind>` and datacenter `n` |
| Api.FloodOnceThenAnswer | src/app/services/telegram-service/telegram.service.ts:116-122 | one FLOOD error then an answer: resolved after exactly one retry and `n` seconds of waiting, routing unchanged |
| Api.RedirectToFive | src/app/services/telegram-service/telegram.service.ts:136-139 | `USER_MIGRATE_5` re-issues the call with `dcId` 5 and leaves the default DC alone |
| Api.DefaultDcIsSticky | src/app/services/telegram-service/telegram.service.ts:129-134 | a call that settles after a `PHONE_MIGRATE_<n>` redirect ends with default DC `n`, unless a later PHONE redirect moved it again; FLOOD waits and other redirects keep it |
| Api.PhoneRedirectMovesDefault | src/app/services/telegram-service/telegram.service.ts:129-134 | `PHONE_MIGRATE_<n>` moves the default DC to `n` before the retry and sets no override |
| Api.RetryThenErrorNeverSettles | src/app/services/telegram-service/telegram.service.ts:116-143 | a FLOOD error followed by an ordinary error leaves the caller's promise unsettled |
| Api.CallPropagating | src/app/services/telegram-service/telegram.service.ts:104-147 | corrected client: never unsettled; the ordinary error that ends any chain of retries is delivered as a rejection |
| Api.PropagatingAgrees | src/app/services/telegram-service/telegram.service.ts:104-147 | the corrected client makes the same attempts and ends in the same state; it agrees with the original wherever that settles, and rejects where the original hangs |
| ItemHash.Step | src/app/services/telegram-service/telegram.service.ts:541 | one step of the hash stays below 2^31 |
| ItemHash.Hash | src/app/services/telegram-service/telegram.service.ts:538-544 | the hash of any id list is below 2^31, and the empty list hashes to 0 |
| ItemHash.CalculateItemHash | src/app/services/telegram-service/telegram.service.ts:538-544 | the loop computes the left-to-right fold of the step over all ids |
| ItemHash.HashIsPolyMod | src/app/services/telegram-service/telegram.service.ts:538-544 | the hash is the polynomial in 0x4F25 over the ids, reduced once modulo 2^31: masking after each step loses nothing |
| ItemHash.HashAppend | src/app/services/telegram-service/telegram.service.ts:540-542 | appending an id extends the hash by exactly one step |
| ItemHash.OrderSensitive | src/app/services/telegram-service/telegram.service.ts:538-544 | `[1, 2]` hashes to 20263 and `[2, 1]` to 40523 |
| Records.UserIdOf | src/app/services/telegram-service/telegram.service.ts:516-520 | only a user peer carries a `user_id` |
| Records.UserFromList | src/app/services/telegram-service/telegram.service.ts:418-424 | the first user with the id, if any; an undefined id finds nobody |
| Records.ChatFromList | src/app/services/telegram-service/telegram.service.ts:329-335 | the first chat with the id, if any |
| Records.IsOwnMessage | src/app/services/telegram-service/telegram.service.ts:526-536 | own exactly when `from_id` is present and names the local user |
| Records.ExtractMessage | src/app/services/telegram-service/telegram.service.ts:562-621 | a text record keeps text, id and date, is marked encrypted and is own when `from_id` is absent or equal to the given id; the three known service actions give fixed notices that are neither own nor encrypted; anything else gives the default record; exactly the known notices come out unencrypted |
| Records.GetMessageSender | src/app/services/telegram-service/telegram.service.ts:509-524 | a channel post has sender `""`; otherwise it succeeds exactly when `from_id.user_id` (or `peer_id.user_id` without `from_id`) names a listed user, gives that user's first name, and throws for an unknown user |
| Records.InputPeerOf | src/app/services/telegram-service/telegram.service.ts:629-643 | user, basic-group and channel peers map to `inputPeerUser` with access hash, `inputPeerChat` without, and `inputPeerChannel` with |
| Records.InputPeerIdentifies | src/app/services/telegram-service/telegram.service.ts:629-643 | two peers share an address exactly when id and kind agree, and, unless they are basic groups, the access hash does too |
| Identity.GroupIdOf | src/app/services/telegram-service/telegram.service.ts:501-507 | a direct chat is keyed by the two user ids smaller first; any other peer by its own id |
| Identity.DirectGroupIdSymmetricAndDecodable | src/app/services/telegram-service/telegram.service.ts:504 | both partners derive the same key, and the key reads back as the two ids, smaller first |
| Identity.DirectGroupIdInjective | src/app/services/telegram-service/telegram.service.ts:504 | two direct chats share a key exactly when they are between the same two users |
| Identity.HundredAndTwoHundred | src/app/services/telegram-service/telegram.service.ts:504 | users 100 and 200 both derive `100_200` |
| Synchronizer.GetGroupMembers | src/app/services/telegram-service/telegram.service.ts:431-457 | no members for direct chats and channels, without a fetch; for a basic group the decimal ids of the fetched users in order; a failed fetch is passed on |
| Synchronizer.ExtractPeer | src/app/services/telegram-service/telegram.service.ts:278-325 | the peer keeps the dialog's id and kind; a user takes its access hash and first name from the answer's users; a basic group or channel takes its name from the chat's title, and a channel its access hash; a basic group has no access hash; members come from `getGroupMembers`; a peer missing from the answer throws; a peer found in the answer is delivered exactly when its member lookup is, and otherwise with that lookup's failure |
| Synchronizer.WithMembers | src/app/services/telegram-service/telegram.service.ts:311 | the peer is completed with exactly the member list `getGroupMembers` delivers |
| Synchronizer.TopMessage | src/app/services/telegram-service/telegram.service.ts:258-269 | the top message is the normalised record with text and `encrypted` taken from decrypt, called with the date in milliseconds and the dialog's group id |
| Synchronizer.DialogAt | src/app/services/telegram-service/telegram.service.ts:253-271 | a built dialog has the looked-up peer, the decrypted top message of the same index and `encrypted` false; a peer that cannot be built passes its failure on; a built peer with a top message at its index always gives a dialog; a missing top message throws |
| Base.AwaitEach | src/app/services/telegram-service/telegram.service.ts:253-272 | awaiting promises one after another gives all their values in order exactly when all are fulfilled, and otherwise the outcome of the first one that is not |
| Synchronizer.GetDialogs | src/app/services/telegram-service/telegram.service.ts:235-274 | succeeds exactly when every raw dialog can be built; then one dialog per raw dialog in the transport's order, whose peer is exactly the one `extractPeer` built (id, kind, name, access hash and members) and whose top message is decrypted, all with `encrypted` false; a failed fetch is passed on |
| Synchronizer.GetDialogsSucceedsIff | src/app/services/telegram-service/telegram.service.ts:253-272 | the dialog list is delivered exactly when every raw dialog can be built, that is, exactly when every dialog's peer can be extracted and the answer has at least as many top messages as dialogs |
| Synchronizer.TooFewTopMessagesFail | src/app/services/telegram-service/telegram.service.ts:258 | fewer top messages than dialogs never yields a dialog list |
| Synchronizer.Ids | src/app/services/telegram-service/telegram.service.ts:540-541 | the ids of the records, one per record, in order |
| Synchronizer.Prepare | src/app/services/telegram-service/telegram.service.ts:470-479 | the `map` succeeds exactly when every sender lookup does, and gives one message per record with extracted text, authorship, id, date and sender; a failure is an unknown-user fault |
| Synchronizer.DecryptAll | src/app/services/telegram-service/telegram.service.ts:484-496 | one message per prepared message in order, with text and `encrypted` from decrypt and everything else kept |
| Synchronizer.PreparedIsNormalised | src/app/services/telegram-service/telegram.service.ts:470-498 | the `map` followed by the decrypt loop yields, for every record in fetch order, a message with its id, date, authorship and sender, and text and flag from one decrypt call made with the date in milliseconds |
| Synchronizer.GetMessages | src/app/services/telegram-service/telegram.service.ts:460-499 | the request addresses the peer with the caller's limit and hash; a failed or pending fetch is passed on and only a pending fetch leaves the result pending; a `messagesNotModified` answer, which has no list, throws in the hash loop; an unchanged hash answers `null` with the caller's hash and decrypts nothing; a changed list whose senders are all known is always delivered, and then the answer has one message per record in fetch order, with id, date, sender and authorship copied, text and flag from decrypt called with `date * 1000` and the peer's group id, and the new hash; a sender missing from the answer's users throws before anything is decrypted |
| Synchronizer.PollTwiceUnchanged | src/app/services/telegram-service/telegram.service.ts:465-468 | asking again with the returned hash over the same history gives the no-change answer and decrypts nothing |
| Synchronizer.SendMessage | src/app/services/telegram-service/telegram.service.ts:546-560 | the text is encrypted in the peer's group, the payload goes to the peer's address, and the result is whether it was encrypted, once the transport accepts it; a rejection is passed on, and a transport that never answers leaves the send pending |
| Synchronizer.DirectChatReadsBack | src/app/services/telegram-service/telegram.service.ts:460-560 | the payload `sendMessage` hands to the transport when user `a` writes to `b`, found from `a` in `b`'s history, is read back by `b` through `getMessages` as the text `a` sent, marked encrypted and not own, whenever decrypt inverts encrypt within a group |
| ChatPage.Initial | src/app/services/telegram-service/chat/chat.page.ts:17-21 | a new page has no message list, hash 0 and an empty last message id |
| ChatPage.Reversed | src/app/services/telegram-service/chat/chat.page.ts:35-36 | the reversal has the same length and holds the elements in opposite order |
| ChatPage.ApplyResponse | src/app/services/telegram-service/chat/chat.page.ts:33-38 | an equal hash leaves the page untouched; a different hash shows the returned messages reversed and stores the new hash, changing nothing else; a `null` list under a different hash throws |
| ChatPage.Refresh | src/app/services/telegram-service/chat/chat.page.ts:31-55 | a fetch that fails or hangs changes nothing; a fulfilled one is applied as above |
| ChatPage.RefreshFromService | src/app/services/telegram-service/chat/chat.page.ts:31-55 | refreshing from `getMessages` with the page's own hash never throws on a `null` list: either the page is unchanged or it shows the decrypted history oldest first under the new hash |
| ChatPage.Outgoing | src/app/services/telegram-service/chat/chat.page.ts:94-96 | the message built for sending carries `String(input)`, is own and unencrypted, with id 0, date 0 and sender "Me" |
| ChatPage.SendMessage | src/app/services/telegram-service/chat/chat.page.ts:93-101 | once the service has sent it, exactly one message is appended at the end with the service's encryption flag, earlier messages and the hash are unchanged, and the last id becomes "0"; an undefined list throws; a send that never completes changes nothing and throws nothing |
| ChatPage.EchoCarriesServiceFlag | src/app/services/telegram-service/chat/chat.page.ts:96-99 | sending through the service appends an echo marked encrypted exactly when the service encrypted the text under the conversation's key; nothing is appended before the transport accepts the message |
| ChatPage.GetColor | src/app/services/telegram-service/chat/chat.page.ts:61-81 | null gives `""`; encrypted own `primary`; encrypted foreign `secondary`; any unencrypted message `medium` |
| ChatPage.GetClasses | src/app/services/telegram-service/chat/chat.page.ts:83-90 | null gives `""`; own `ion-text-end left-pad `; foreign `right-pad ` |
| ChatPage.PresentationSeparates | src/app/services/telegram-service/chat/chat.page.ts:61-90 | two messages share a colour exactly when they agree on encryption and, if encrypted, on authorship; they share classes exactly when they agree on authorship, so the encryption flag never affects the classes |
| ChatPage.EmptyConversationDropsEcho | src/app/services/telegram-service/chat/chat.page.ts:18-99 | entering an empty conversation leaves the list undefined, and a message sent then is delivered but its echo throws |
| ChatPage.InitialFixed | src/app/services/telegram-service/chat/chat.page.ts:17-21 | corrected page: the list starts empty |
| ChatPage.FixedPageKeepsEcho | src/app/services/telegram-service/chat/chat.page.ts:31-101 | with a defined list, every refresh from `getMessages` keeps it defined, and every accepted send appends its echo without throwing |
| Tab1Page.Settle | src/app/pages/tab1/tab1.page.ts:36-43 | a resolved probe sets the flag, a rejected one clears it, a pending one leaves it |
| Tab1Page.ProbeFor | src/app/pages/tab1/tab1.page.ts:35-59 | a basic group is probed with `Groups.update` and its members; a direct chat with `Dialogs.update` and the key `getGroupId` derives; a channel is not probed |
| Tab1Page.ProbesOf | src/app/pages/tab1/tab1.page.ts:34-60 | at most one probe per dialog, every probe belongs to some dialog, and there is one per dialog exactly when no dialog is a channel |
| Tab1Page.ProbesOfAppend | src/app/pages/tab1/tab1.page.ts:34-60 | one more dialog adds exactly its own probe after all the earlier ones, none for a channel, so the probes follow dialog order |
| Tab1Page.LoadDialogs | src/app/pages/tab1/tab1.page.ts:31-61 | the fetched dialogs replace the shown ones with peer and top message kept and each flag settled by its own probe; channels are unchanged; a failed or pending fetch changes nothing and probes nothing |
| Tab1Page.DirectProbeKeyShared | src/app/pages/tab1/tab1.page.ts:46-48 | both partners of a direct chat probe under the same key, the one the service encrypts that chat with |
| Tab1Page.ChannelsStayPlain | src/app/pages/tab1/tab1.page.ts:34-59 | a channel fetched through `getDialogs` stays unencrypted whatever CloudMLS answers |
| Tab1Page.OpenChat | src/app/pages/tab1/tab1.page.ts:64-73 | navigation goes to a two-segment route starting with `chat` and carries the dialog; the route is resolved relative to the tab's route |
| Tab1Page.OpenChatRouteRoundTrip | src/app/pages/tab1/tab1.page.ts:64-73 | the route's id segment reads back as the peer id, so two dialogs share a route exactly when their peers share an id |

## Left out

- `CustomLocalStorage` is left out. It is AES over Ionic storage: a foreign crypto library plus persistent storage.
- The MTProto transport is left out. It appears only as scripted answers (`Api`) or as settled promises (`Synchronizer`).
- `Message.encrypt`, `Message.decrypt`, `Groups.update` and `Dialogs.update` are left out. They are CloudMLS calls whose code is not part of this model, so they are parameters.
- The synchronizer does not call `Api.Call`. Each fetch enters as the promise that call ends in, so `getDialogs` and `getMessages` are modelled apart from the retry loop.
- Profile pictures are left out: `getPhoto`, the picture promises in `getDialogs` and `getContacts`, and `getContacts` itself. They are network I/O whose errors are swallowed.
- `getRandomID` and the `random_id` of a sent message are left out, because they are floating-point randomness.
- The session plumbing is left out: `init`, `destroy`, `requestAuthCode`, `sendAuthCode` and `getOwnId`. They are promise wrappers around RPC calls. The local user's id is a parameter (`ownId`).
- The tab2, tab3, login and register pages and the routing module are left out, because they are UI glue.
- Timing is left out: `setTimeout`, the one-second `setInterval` of `reload`, `clearInterval`, and `scrollToBottom`. A FLOOD wait is the accumulated `waitedMs`. A reload is one `Refresh`.
- Concurrency is left out. The probes of `loadDialogs` settle in any order, and the page may render before they do. The model shows the list once every probe that settles has settled.
- The text box of the chat page, which `sendMessage` clears, is left out because it is UI state.
- ChatPage.SendMessage: the input is text or a non-negative integer. `String(input)` of a negative or fractional number is not modelled, because the text box yields strings and ids are naturals.
- The `messages.getDialogs` request (limit 500, hash 0, an empty offset peer) is not modelled. Its answer enters `Synchronizer.GetDialogs` as a parameter, and with hash 0 the transport never answers `dialogsNotModified`.
- Decimal.ToNumber: covers JS `Number` only on digit strings. Signs, fractions, exponents, hex literals and surrounding whitespace give NaN in the model. They give numbers in JS, but they cannot occur in the error messages and ids the code parses.
- Api.FloodWaitMs: a FLOOD wait above 2^31 - 1 ms overflows the JS timer to an immediate retry, and the model waits the full time.
- Ids are unbounded naturals. The JS numbers above 2^53 lose precision, and the model does not reproduce that.
- Peer kinds are the three MTProto peer constructors. The `default:` branches for an unknown peer type string are unreachable in the model.
- A message with a non-user `from_id` has an `undefined` sender name in the source. The model renders it as `""`.
- Records.RawUser: `access_hash` and `first_name` of an MTProto user are optional flags, and a deleted account has no `first_name`. The model makes both mandatory. `extractPeer` and `getMessageSender` copy `first_name` unchecked, so for such a user the source yields an `undefined` peer name or sender, which the model cannot represent. Only the profile-picture helpers `getPhoto` and `defaultPhotoUser` guard the field, and they are left out with the pictures.
- Synchronizer.GetMessages: a `messageEmpty` record carries no date, but the model gives every raw record one. `getDialogs` is unaffected, because `extractMessage` turns such a record into the default record. `getMessages` is not: it copies `date` straight from the raw record and calls decrypt with `date * 1000`. For a `messageEmpty` whose sender lookup succeeds, the source passes a NaN timestamp and returns `date: undefined`, while the model passes the record's natural-number date and its thousandfold.
- `Message.id` is typed as a string in the source but holds the transport's number. The model keeps it as a natural number, and the literal `"0"` is 0.

## Findings

| source | as written | input that shows it | evidently intended | confidence | as-written member | corrected member |
|---|---|---|---|---|---|---|
| src/app/services/telegram-service/telegram.service.ts:116-143 | a retried call passes only its result on (`.then(result => resolve(result))`); a rejection of the retry reaches no handler | the transport answers `420 FLOOD_WAIT_1`, then `400 PEER_ID_INVALID` | the caller's promise rejects with the second error | high; not executed | Api.RetryThenErrorNeverSettles | Api.PropagatingAgrees |
| src/app/services/telegram-service/chat/chat.page.ts:18-99 | `messages` has no initial value and is assigned only when the returned hash differs from the stored hash, which starts at 0 | a conversation with no messages: its hash is 0, so `messages` stays undefined, and `sendMessage` sends the text, then throws on `push` | the list starts empty, so the sent message is echoed | high; not executed | ChatPage.EmptyConversationDropsEcho | ChatPage.FixedPageKeepsEcho |

=== FILE: api.dfy ===
/** The retrying RPC client (`API.call`). The MTProto transport is a script:
    the list of answers it gives to successive attempts of one call. Every
    attempt consumes one answer; an error with code 420 (FLOOD) waits and
    re-issues the call, an error with code 303 (SEE_OTHER) re-routes it to
    another datacenter and re-issues it, any other error rejects. */
module Api {

  import opened Base
  import opened Decimal
  import opened JsString

  const FloodCode := 420
  const SeeOtherCode := 303
  const FloodMarker := "FLOOD_WAIT_"
  const MigrateMarker := "_MIGRATE_"
  /** The redirect kind of `auth.sendCode`, which must move the default DC. */
  const PhoneKind := "PHONE"

  /** The `{ error_code, error_message }` a failed transport call carries. */
  datatype RpcError = RpcError(code: int, message: string)

  /** One answer of the transport to one attempt. */
  datatype Response<+R> = Answer(result: R) | Fail(error: RpcError)

  /** What the client carries between attempts: the transport's default
      datacenter, the per-call `options.dcId` override, and the total time
      spent waiting out rate limits. */
  datatype CallState = CallState(defaultDc: JsNumber, dcOverride: Option<JsNumber>, waitedMs: nat)

  /** One request handed to the transport, with the routing in force. */
  datatype Attempt<+P> = Attempt(name: string, params: P, defaultDc: JsNumber, dcOverride: Option<JsNumber>)

  /** How the promise returned to the caller ends: resolved, rejected,
      never settled (a retry failed and nobody handles the rejection), or
      the scripted transport ran out of answers before the call settled. */
  datatype Outcome<+R> = Resolved(result: R) | Rejected(error: RpcError) | Unsettled(error: RpcError) | Exhausted

  datatype CallRun<+P, +R> = CallRun(outcome: Outcome<R>, state: CallState, attempts: seq<Attempt<P>>)

  predicate Retryable(e: RpcError) {
    e.code == FloodCode || e.code == SeeOtherCode
  }

  /** The `i`-th answer of the script is an error the client retries. */
  predicate RetryableAt<R>(script: seq<Response<R>>, i: nat)
    requires i < |script|
  {
    script[i].Fail? && Retryable(script[i].error)
  }

  /** Milliseconds waited for a FLOOD error: the number after the first
      `FLOOD_WAIT_` (up to any further one) times 1000. A message without the
      marker or with a non-numeric suffix gives NaN, and a NaN timer delay
      fires at once. */
  function FloodWaitMs(message: string): nat {
    match ToNumberOpt(Piece(Split(message, FloodMarker), 1))
    case Num(seconds) => seconds * 1000
    case NaN => 0
  }

  /** The redirect kind (text before the first `_MIGRATE_`) and the target
      datacenter (the number after it) of a SEE_OTHER error. */
  function MigrateTarget(message: string): (string, JsNumber) {
    var parts := Split(message, MigrateMarker);
    (parts[0], ToNumberOpt(Piece(parts, 1)))
  }

  /** The state a retryable error leaves for the re-issued call. */
  function Reroute(st: CallState, e: RpcError): (r: CallState)
    requires Retryable(e)
    // a FLOOD error only adds waiting time; a redirect never waits and
    // changes exactly one of the two routings
    ensures e.code == FloodCode ==> r.defaultDc == st.defaultDc && r.dcOverride == st.dcOverride && r.waitedMs >= st.waitedMs
    ensures e.code == SeeOtherCode ==> r.waitedMs == st.waitedMs
    ensures e.code == SeeOtherCode && MigrateTarget(e.message).0 == PhoneKind ==>
              r.dcOverride == st.dcOverride && r.defaultDc == MigrateTarget(e.message).1
    ensures e.code == SeeOtherCode && MigrateTarget(e.message).0 != PhoneKind ==>
              r.defaultDc == st.defaultDc && r.dcOverride == Some(MigrateTarget(e.message).1)
  {
    if e.code == FloodCode then
      st.(waitedMs := st.waitedMs + FloodWaitMs(e.message))
    else
      var (kind, dc) := MigrateTarget(e.message);
      if kind == PhoneKind then st.(defaultDc := dc) else st.(dcOverride := Some(dc))
  }

  /** A retry resolves the outer promise only through `.then(resolve)`: a
      rejection of the re-issued call is never passed on. */
  function Chain<R>(inner: Outcome<R>): Outcome<R> {
    if inner.Rejected? then Unsettled(inner.error) else inner
  }

  /** `API.call(name, params, options)` run against a scripted transport. */
  function Call<P, R>(name: string, params: P, script: seq<Response<R>>, st: CallState): (r: CallRun<P, R>)
    ensures |r.attempts| <= |script|
    ensures forall i :: 0 <= i < |r.attempts| ==> r.attempts[i].name == name && r.attempts[i].params == params
    ensures |r.attempts| > 0 ==> r.attempts[0].defaultDc == st.defaultDc && r.attempts[0].dcOverride == st.dcOverride
    ensures r.state.waitedMs >= st.waitedMs
    // the routing a settled call leaves behind is the one its last attempt used
    ensures 0 < |r.attempts| && !r.outcome.Exhausted? ==>
              r.state.defaultDc == r.attempts[|r.attempts| - 1].defaultDc && r.state.dcOverride == r.attempts[|r.attempts| - 1].dcOverride
    ensures r.outcome.Exhausted? ==> |r.attempts| == |script|
    ensures r.outcome.Resolved? ==> 0 < |r.attempts| && script[|r.attempts| - 1] == Answer(r.outcome.result)
    ensures r.outcome.Rejected? || r.outcome.Unsettled? ==>
              0 < |r.attempts| && script[|r.attempts| - 1] == Fail(r.outcome.error) && !Retryable(r.outcome.error)
    // only a failure of the very first attempt reaches the caller
    ensures r.outcome.Rejected? <==> 0 < |script| && script[0].Fail? && !Retryable(script[0].error)
    ensures r.outcome.Unsettled? ==> 1 < |r.attempts|
    decreases |script|
  {
    if |script| == 0 then CallRun(Exhausted, st, [])
    else
      var here := Attempt(name, params, st.defaultDc, st.dcOverride);
      match script[0]
      case Answer(result) => CallRun(Resolved(result), st, [here])
      case Fail(e) =>
        if Retryable(e) then
          var inner := Call(name, params, script[1..], Reroute(st, e));
          assert 0 < |inner.attempts| ==> script[|inner.attempts|] == script[1..][|inner.attempts| - 1];
          CallRun(Chain(inner.outcome), inner.state, [here] + inner.attempts)
        else
          CallRun(Outcome.Rejected(e), st, [here])
  }

  /** Every answer a call consumed before its last one was an error it
      retries, and a call that ran out of script retried every answer. */
  lemma {:induction false} OnlyRetryableAnswersAreRetried<P, R>(name: string, params: P, script: seq<Response<R>>, st: CallState)
    ensures var r := Call(name, params, script, st);
            forall i :: 0 <= i < |r.attempts| - 1 ==> RetryableAt(script, i)
    ensures var r := Call(name, params, script, st);
            r.outcome.Exhausted? ==> forall i :: 0 <= i < |script| ==> RetryableAt(script, i)
    decreases |script|
  {
    if |script| > 0 && script[0].Fail? && Retryable(script[0].error) {
      OnlyRetryableAnswersAreRetried(name, params, script[1..], Reroute(st, script[0].error));
      forall i | 1 <= i < |script|
        ensures RetryableAt(script, i) == RetryableAt(script[1..], i - 1)
      {
        assert script[i] == script[1..][i - 1];
      }
    }
  }

  /** The routing an attempt carried, moved on by a retryable error. */
  function RerouteAttempt<P>(a: Attempt<P>, e: RpcError): (r: CallState)
    requires Retryable(e)
  {
    Reroute(CallState(a.defaultDc, a.dcOverride, 0), e)
  }

  /** Each re-issued request carries the routing of the one before it,
      moved on by the error that request received. */
  lemma {:induction false} SuccessiveAttemptsAreRerouted<P, R>(name: string, params: P, script: seq<Response<R>>, st: CallState)
    ensures var r := Call(name, params, script, st);
            forall k :: 0 <= k < |r.attempts| - 1 ==>
              && script[k].Fail? && Retryable(script[k].error)
              && r.attempts[k + 1].defaultDc == RerouteAttempt(r.attempts[k], script[k].error).defaultDc
              && r.attempts[k + 1].dcOverride == RerouteAttempt(r.attempts[k], script[k].error).dcOverride
    decreases |script|
  {
    var r := Call(name, params, script, st);
    if |script| > 0 && script[0].Fail? && Retryable(script[0].error) {
      var e := script[0].error;
      var inner := Call(name, params, script[1..], Reroute(st, e));
      SuccessiveAttemptsAreRerouted(name, params, script[1..], Reroute(st, e));
      assert r.attempts == [Attempt(name, params, st.defaultDc, st.dcOverride)] + inner.attempts;
      forall k | 0 <= k < |r.attempts| - 1
        ensures script[k].Fail? && Retryable(script[k].error)
        ensures r.attempts[k + 1].defaultDc == RerouteAttempt(r.attempts[k], script[k].error).defaultDc
        ensures r.attempts[k + 1].dcOverride == RerouteAttempt(r.attempts[k], script[k].error).dcOverride
      {
        if k > 0 {
          assert script[k] == script[1..][k - 1];
          assert r.attempts[k] == inner.attempts[k - 1] && r.attempts[k + 1] == inner.attempts[k];
        }
      }
    }
  }

  /** Total FLOOD delay announced by a run of answers. */
  function FloodDelays<R>(answers: seq<Response<R>>): nat
    decreases |answers|
  {
    if |answers| == 0 then 0
    else
      var d := if answers[0].Fail? && answers[0].error.code == FloodCode then FloodWaitMs(answers[0].error.message) else 0;
      d + FloodDelays(answers[1..])
  }

  /** The time a call spends waiting is the sum of the delays of the FLOOD
      errors it consumed; it never waits for anything else. */
  lemma {:induction false} WaitIsSumOfFloodDelays<P, R>(name: string, params: P, script: seq<Response<R>>, st: CallState)
    ensures var r := Call(name, params, script, st);
            r.state.waitedMs == st.waitedMs + FloodDelays(script[..|r.attempts|])
    decreases |script|
  {
    var r := Call(name, params, script, st);
    if |script| > 0 && script[0].Fail? && Retryable(script[0].error) {
      var e := script[0].error;
      var inner := Call(name, params, script[1..], Reroute(st, e));
      WaitIsSumOfFloodDelays(name, params, script[1..], Reroute(st, e));
      assert script[..|r.attempts|][1..] == script[1..][..|inner.attempts|];
    } else if |script| > 0 {
      assert script[..|r.attempts|] == [script[0]];
      assert FloodDelays(script[..|r.attempts|]) == FloodDelays([script[0]][1..]) + 0;
    }
  }

  /** A consumed answer that moves the default datacenter. */
  predicate PhoneMigrateAt<R>(script: seq<Response<R>>, i: nat)
    requires i < |script|
  {
    script[i].Fail? && script[i].error.code == SeeOtherCode && MigrateTarget(script[i].error.message).0 == PhoneKind
  }

  /** A consumed answer that sets the per-call datacenter override. */
  predicate OtherMigrateAt<R>(script: seq<Response<R>>, i: nat)
    requires i < |script|
  {
    script[i].Fail? && script[i].error.code == SeeOtherCode && MigrateTarget(script[i].error.message).0 != PhoneKind
  }

  /** Only a PHONE redirect moves the default datacenter, and only a
      redirect of any other kind touches the per-call override. */
  lemma {:induction false} RoutingChangesOnlyByRedirect<P, R>(name: string, params: P, script: seq<Response<R>>, st: CallState)
    ensures var r := Call(name, params, script, st);
            (forall i :: 0 <= i < |r.attempts| ==> !PhoneMigrateAt(script, i)) ==> r.state.defaultDc == st.defaultDc
    ensures var r := Call(name, params, script, st);
            (forall i :: 0 <= i < |r.attempts| ==> !OtherMigrateAt(script, i)) ==> r.state.dcOverride == st.dcOverride
    decreases |script|
  {
    if |script| > 0 && script[0].Fail? && Retryable(script[0].error) {
      var e := script[0].error;
      var r := Call(name, params, script, st);
      var inner := Call(name, params, script[1..], Reroute(st, e));
      RoutingChangesOnlyByRedirect(name, params, script[1..], Reroute(st, e));
      forall i | 0 <= i < |inner.attempts|
        ensures PhoneMigrateAt(script[1..], i) == PhoneMigrateAt(script, i + 1)
        ensures OtherMigrateAt(script[1..], i) == OtherMigrateAt(script, i + 1)
      {
        assert script[1..][i] == script[i + 1];
      }
      assert |r.attempts| == 1 + |inner.attempts|;
      if forall i :: 0 <= i < |r.attempts| ==> !PhoneMigrateAt(script, i) {
        assert !PhoneMigrateAt(script, 0);
        assert forall i :: 0 <= i < |inner.attempts| ==> !PhoneMigrateAt(script[1..], i);
      }
      if forall i :: 0 <= i < |r.attempts| ==> !OtherMigrateAt(script, i) {
        assert !OtherMigrateAt(script, 0);
        assert forall i :: 0 <= i < |inner.attempts| ==> !OtherMigrateAt(script[1..], i);
      }
    }
  }

  /** A FLOOD error whose message is `FLOOD_WAIT_<n>` waits `n` seconds. */
  lemma FloodWaitParsesSeconds(n: nat)
    ensures FloodWaitMs(FloodMarker + NatToString(n)) == n * 1000
  {
    var d := NatToString(n);
    NonDigitNotIn(d, 'F');
    SplitAroundOne("", FloodMarker, d);
    assert "" + FloodMarker + d == FloodMarker + d;
    NatToStringRoundTrip(n);
  }

  /** A FLOOD error without the `FLOOD_WAIT_` marker (for example a
      `SLOWMODE_WAIT_<n>` message, which also carries code 420) is retried
      without any wait. */
  lemma FloodWithoutMarkerRetriesAtOnce(message: string)
    requires !Contains(message, FloodMarker)
    ensures FloodWaitMs(message) == 0
  {
    SplitWithout(message, FloodMarker);
  }

  /** A SEE_OTHER message `<kind>_MIGRATE_<n>` names kind `<kind>` and
      datacenter `n`, whenever the kind has no underscore. */
  lemma MigrateTargetParses(kind: string, n: nat)
    requires '_' !in kind
    ensures MigrateTarget(kind + MigrateMarker + NatToString(n)) == (kind, Num(n))
  {
    var d := NatToString(n);
    NonDigitNotIn(d, '_');
    SplitAroundOne(kind, MigrateMarker, d);
    NatToStringRoundTrip(n);
  }

  /** A call that is rate limited once for `n` seconds and then answered
      resolves with that answer after exactly one retry and `n` seconds of
      waiting, with routing untouched. */
  lemma FloodOnceThenAnswer<P, R>(name: string, params: P, n: nat, result: R, st: CallState)
    ensures var r := Call(name, params, [Fail(RpcError(FloodCode, FloodMarker + NatToString(n))), Answer(result)], st);
            && r.outcome == Resolved(result)
            && |r.attempts| == 2
            && r.state == st.(waitedMs := st.waitedMs + n * 1000)
  {
    FloodWaitParsesSeconds(n);
    var script := [Fail(RpcError(FloodCode, FloodMarker + NatToString(n))), Answer(result)];
    assert script[1..] == [Answer(result)];
  }

  /** A non-login call redirected to datacenter 5 is re-issued once with
      `options.dcId == 5`, and the default datacenter stays where it was. */
  lemma RedirectToFive<P, R>(name: string, params: P, result: R, st: CallState)
    ensures var r := Call(name, params, [Fail(RpcError(SeeOtherCode, "USER_MIGRATE_5")), Answer(result)], st);
            && r.outcome == Resolved(result)
            && |r.attempts| == 2
            && r.attempts[1].dcOverride == Some(Num(5))
            && r.attempts[1].defaultDc == st.defaultDc
            && r.state.defaultDc == st.defaultDc
  {
    assert "USER_MIGRATE_5" == "USER" + MigrateMarker + NatToString(5);
    MigrateTargetParses("USER", 5);
    var script := [Fail(RpcError(SeeOtherCode, "USER_MIGRATE_5")), Answer(result)];
    assert script[1..] == [Answer(result)];
  }

  /** A login-code request redirected with `PHONE_MIGRATE_<n>` moves the
      default datacenter to `n` before the retry and sets no override. */
  lemma PhoneRedirectMovesDefault<P, R>(name: string, params: P, n: nat, result: R, st: CallState)
    ensures var r := Call(name, params, [Fail(RpcError(SeeOtherCode, PhoneKind + MigrateMarker + NatToString(n))), Answer(result)], st);
            && r.outcome == Resolved(result)
            && r.attempts[1].defaultDc == Num(n)
            && r.attempts[1].dcOverride == st.dcOverride
            && r.state.defaultDc == Num(n)
  {
    MigrateTargetParses(PhoneKind, n);
    var script := [Fail(RpcError(SeeOtherCode, PhoneKind + MigrateMarker + NatToString(n))), Answer(result)];
    assert script[1..] == [Answer(result)];
  }

  /** A PHONE redirect moves the default datacenter for good: a call that
      settles after it ends on the redirect's target unless a later PHONE
      redirect moved it again. */
  lemma DefaultDcIsSticky<P, R>(name: string, params: P, script: seq<Response<R>>, st: CallState, k: nat)
    requires var r := Call(name, params, script, st);
             && !r.outcome.Exhausted? && k < |r.attempts| - 1 && PhoneMigrateAt(script, k)
             && forall j :: k < j < |r.attempts| - 1 ==> !PhoneMigrateAt(script, j)
    ensures Call(name, params, script, st).state.defaultDc == MigrateTarget(script[k].error.message).1
  {
    var r := Call(name, params, script, st);
    var target := MigrateTarget(script[k].error.message).1;
    SuccessiveAttemptsAreRerouted(name, params, script, st);
    var j := k + 1;
    while j < |r.attempts| - 1
      invariant k < j <= |r.attempts| - 1
      invariant r.attempts[j].defaultDc == target
    {
      assert !PhoneMigrateAt(script, j);
      assert r.attempts[j + 1].defaultDc == RerouteAttempt(r.attempts[j], script[j].error).defaultDc;
      j := j + 1;
    }
  }

  /** A retried call that then fails with an ordinary error leaves the
      caller's promise unsettled: the error is never delivered. */
  lemma RetryThenErrorNeverSettles<P, R>(name: string, params: P, e: RpcError, st: CallState)
    requires !Retryable(e)
    ensures Call<P, R>(name, params, [Fail(RpcError(FloodCode, "FLOOD_WAIT_1")), Fail(e)], st).outcome == Unsettled(e)
  {
    var script: seq<Response<R>> := [Fail(RpcError(FloodCode, "FLOOD_WAIT_1")), Fail(e)];
    assert script[1..] == [Fail(e)];
  }

  /** `API.call` with the retries chained as `.then(resolve, reject)`, so
      that a failure after any number of retries reaches the caller. */
  function CallPropagating<P, R>(name: string, params: P, script: seq<Response<R>>, st: CallState): (r: CallRun<P, R>)
    ensures !r.outcome.Unsettled?
    ensures |r.attempts| <= |script|
    ensures r.outcome.Exhausted? ==> |r.attempts| == |script|
    // the error that ends a chain of retries is delivered to the caller
    ensures 0 < |r.attempts| && script[|r.attempts| - 1].Fail? && !Retryable(script[|r.attempts| - 1].error) ==>
              r.outcome == Outcome.Rejected(script[|r.attempts| - 1].error)
    ensures r.outcome.Rejected? ==> 0 < |r.attempts| && script[|r.attempts| - 1] == Fail(r.outcome.error)
    decreases |script|
  {
    if |script| == 0 then CallRun(Exhausted, st, [])
    else
      var here := Attempt(name, params, st.defaultDc, st.dcOverride);
      match script[0]
      case Answer(result) => CallRun(Resolved(result), st, [here])
      case Fail(e) =>
        if Retryable(e) then
          var inner := CallPropagating(name, params, script[1..], Reroute(st, e));
          assert 0 < |inner.attempts| ==> script[|inner.attempts|] == script[1..][|inner.attempts| - 1];
          CallRun(inner.outcome, inner.state, [here] + inner.attempts)
        else
          CallRun(Outcome.Rejected(e), st, [here])
  }

  /** The corrected client behaves exactly like the original wherever the
      original settles, and rejects exactly where the original hangs. */
  lemma {:induction false} PropagatingAgrees<P, R>(name: string, params: P, script: seq<Response<R>>, st: CallState)
    ensures var a := Call(name, params, script, st);
            var b := CallPropagating(name, params, script, st);
            && a.state == b.state && a.attempts == b.attempts
            && (a.outcome.Unsettled? ==> b.outcome == Outcome.Rejected(a.outcome.error))
            && (!a.outcome.Unsettled? ==> b.outcome == a.outcome)
    decreases |script|
  {
    if |script| > 0 && script[0].Fail? && Retryable(script[0].error) {
      PropagatingAgrees(name, params, script[1..], Reroute(st, script[0].error));
    }
  }
}

=== FILE: base.dfy ===
/** Failure-carrying wrappers shared by the whole model: an optional value (JS
    `undefined`), a synchronous result (a value or a thrown error) and the
    settled state of an asynchronous operation. */
module Base {

  datatype Option<+T> = None | Some(value: T)

  /** Why an operation of the overlay failed. */
  datatype Fault =
    | RpcFailure(code: int, message: string)   // a fetch the transport rejected
    | UnknownUser(userId: Option<nat>)         // property read on a user lookup that found nothing
    | UnknownChat(chatId: nat)                 // property read on a chat lookup that found nothing
    | MissingRecord(index: nat)                // property read on an array slot past its end
    | NullList                                 // method call on a `null` / `undefined` list
    | NotIterable                              // `for ... of` over an `undefined` list

  /** A synchronous computation either returns a value or throws. */
  datatype Result<+T> = Ok(value: T) | Err(fault: Fault)

  /** How an asynchronous operation ends up: resolved, rejected, or never
      settled at all (a promise nobody resolves). */
  datatype Promise<+T> = Fulfilled(value: T) | Rejected(fault: Fault) | Pending {

    /** An unfulfilled promise seen as one of another value type: a
        rejection is passed on, a pending promise stays pending. */
    function Forward<U>(): (r: Promise<U>)
      requires !Fulfilled?
      ensures r.Rejected? <==> Rejected?
      ensures Rejected? ==> r.fault == fault
    {
      if Rejected? then Rejected(fault) else Pending
    }
  }

  /** Awaiting a list of promises one after another, as a `for` loop with
      an `await` in its body does: the values in order once every promise
      is fulfilled, otherwise the outcome of the first one that is not. */
  function AwaitEach<T>(ps: seq<Promise<T>>): (r: Promise<seq<T>>)
    ensures r.Fulfilled? <==> forall i :: 0 <= i < |ps| ==> ps[i].Fulfilled?
    ensures r.Fulfilled? ==> |r.value| == |ps| && forall i :: 0 <= i < |ps| ==> r.value[i] == ps[i].value
    ensures !r.Fulfilled? ==>
              exists k :: 0 <= k < |ps| && !ps[k].Fulfilled? && r == ps[k].Forward()
                          && forall j :: 0 <= j < k ==> ps[j].Fulfilled?
    decreases |ps|
  {
    if |ps| == 0 then Fulfilled([])
    else
      assert forall i :: 1 <= i < |ps| ==> ps[i] == ps[1..][i - 1];
      match ps[0]
      case Rejected(f) => Rejected(f)
      case Pending => Pending
      case Fulfilled(v) =>
        match AwaitEach(ps[1..])
        case Fulfilled(vs) => Fulfilled([v] + vs)
        case Rejected(f) => Rejected(f)
        case Pending => Pending
  }
}

=== FILE: chat.dfy ===
/** The chat view (`ChatPage`): the message list it shows, refreshed from
    `getMessages` only when the change-detection hash moves, the local echo
    of a sent message, and the colour and classes a message is drawn with. */
module ChatPage {

  import opened Base
  import opened Decimal
  import opened Records
  import Identity
  import Synchronizer

  /** How many messages the page asks for on entry and on every reload. */
  const HistoryLimit := 25
  /** The sender name of the local echo of a sent message. */
  const OwnName := "Me"

  /** The page's fields: the dialog it shows, the message list (undefined
      until the first changed answer arrives), the last hash seen and the id
      of the last message sent. */
  datatype ChatState = ChatState(dialog: Dialog, messages: Option<seq<Message>>, hash: nat, lastMessageId: string)

  /** The state after one handler ran, and what it threw, if anything. */
  datatype Step = Step(state: ChatState, fault: Option<Fault>)

  /** The page as constructed: `messages` has no initial value, `hash` is 0
      and `lastMessageID` is empty. */
  function Initial(dialog: Dialog): (st: ChatState)
    ensures st.messages.None? && st.hash == 0 && st.lastMessageId == "" && st.dialog == dialog
  {
    ChatState(dialog, None, 0, "")
  }

  function Reversed<T>(s: seq<T>): (r: seq<T>)
    ensures |r| == |s|
    ensures forall i :: 0 <= i < |s| ==> r[i] == s[|s| - 1 - i]
    decreases |s|
  {
    if |s| == 0 then [] else Reversed(s[1..]) + [s[0]]
  }

  /** The update shared by `ionViewDidEnter` and `reload`: a response whose
      hash differs from the stored one replaces the list by the reversal of
      its messages (oldest first) and stores the new hash; any other
      response leaves the page alone. Reversing a null list throws. */
  function ApplyResponse(st: ChatState, resp: Synchronizer.MessagesResponse): (r: Result<ChatState>)
    ensures resp.hash == st.hash ==> r == Ok(st)
    ensures resp.hash != st.hash && resp.messages.None? ==> r == Err(NullList)
    ensures resp.hash != st.hash && resp.messages.Some? ==>
              var shown := resp.messages.value;
              && r.Ok?
              && r.value == st.(messages := r.value.messages, hash := resp.hash)
              && r.value.messages.Some? && |r.value.messages.value| == |shown|
              && forall i :: 0 <= i < |shown| ==> r.value.messages.value[i] == shown[|shown| - 1 - i]
  {
    if resp.hash != st.hash then
      match resp.messages
      case None => Err(NullList)
      case Some(ms) => Ok(st.(messages := Some(Reversed(ms)), hash := resp.hash))
    else Ok(st)
  }

  /** One fetch-and-update: the handler awaits `getMessages(peer, 25, hash)`;
      a rejection escapes the handler and changes nothing, a fetch that
      never settles changes nothing. */
  function Refresh(st: ChatState, fetched: Promise<Synchronizer.MessagesResponse>): (r: Step)
    ensures fetched.Pending? ==> r == Step(st, None)
    ensures fetched.Rejected? ==> r == Step(st, Some(fetched.fault))
    ensures fetched.Fulfilled? && ApplyResponse(st, fetched.value).Ok? ==> r == Step(ApplyResponse(st, fetched.value).value, None)
    ensures fetched.Fulfilled? && ApplyResponse(st, fetched.value).Err? ==> r == Step(st, Some(ApplyResponse(st, fetched.value).fault))
  {
    match fetched
    case Pending => Step(st, None)
    case Rejected(f) => Step(st, Some(f))
    case Fulfilled(resp) =>
      match ApplyResponse(st, resp)
      case Ok(next) => Step(next, None)
      case Err(f) => Step(st, Some(f))
  }

  /** Refreshing from the synchronizer with the page's own hash never hits a
      null list: either nothing changes, or the page shows the decrypted
      history oldest first under its new hash. */
  lemma RefreshFromService(st: ChatState, h: Synchronizer.History, ownId: nat, decrypt: Synchronizer.Decrypt)
    ensures var run := Synchronizer.GetMessages(st.dialog.peer, HistoryLimit, st.hash, Fulfilled(h), ownId, decrypt);
            var r := Refresh(st, run.result);
            && r.fault != Some(NullList)
            && (run.result.Fulfilled? && run.result.value.messages.Some? ==>
                  && r.state.hash == run.result.value.hash != st.hash
                  && r.state.messages == Some(Reversed(run.result.value.messages.value)))
            && (run.result.Fulfilled? && run.result.value.messages.None? ==> r.state == st)
  {
    var run := Synchronizer.GetMessages(st.dialog.peer, HistoryLimit, st.hash, Fulfilled(h), ownId, decrypt);
    if run.result.Fulfilled? {
      var resp := run.result.value;
      if resp.messages.Some? {
        assert ApplyResponse(st, resp) == Ok(st.(messages := Some(Reversed(resp.messages.value)), hash := resp.hash));
      } else {
        assert ApplyResponse(st, resp) == Ok(st);
      }
    }
  }

  /** `String(input)` of the text box: text as typed, a number in decimal. */
  datatype Input = TextInput(text: string) | NumberInput(n: nat)

  function InputText(input: Input): string {
    match input
    case TextInput(t) => t
    case NumberInput(n) => NatToString(n)
  }

  /** The message object `sendMessage` builds and hands to the service. */
  function Outgoing(input: Input): (m: Message)
    ensures m.text == InputText(input) && m.isOwn && !m.encrypted && m.id == 0 && m.date == 0 && m.from == OwnName
  {
    Message(InputText(input), true, false, 0, 0, OwnName)
  }

  /** `sendMessage(input)`: once the service has sent the message, the
      local echo, marked with whether it went out encrypted, is appended at
      the end of the list; pushing onto an undefined list throws. */
  function SendMessage(st: ChatState, input: Input, sent: Promise<bool>): (r: Step)
    ensures !sent.Fulfilled? ==> r.state == st
    ensures sent.Rejected? ==> r.fault == Some(sent.fault)
    ensures sent.Pending? ==> r == Step(st, None)
    ensures sent.Fulfilled? && st.messages.None? ==> r == Step(st, Some(NullList))
    ensures sent.Fulfilled? && st.messages.Some? ==>
              var before := st.messages.value;
              && r.fault.None?
              && r.state.messages.Some?
              && |r.state.messages.value| == |before| + 1
              && r.state.messages.value[..|before|] == before
              && r.state.messages.value[|before|] == Outgoing(input).(encrypted := sent.value)
              && r.state.hash == st.hash && r.state.dialog == st.dialog
              && r.state.lastMessageId == "0"
  {
    match sent
    case Pending => Step(st, None)
    case Rejected(f) => Step(st, Some(f))
    case Fulfilled(encrypted) =>
      var echo := Outgoing(input).(encrypted := encrypted);
      match st.messages
      case None => Step(st, Some(NullList))
      case Some(ms) => Step(st.(messages := Some(ms + [echo]), lastMessageId := NatToString(echo.id)), None)
  }

  /** Sending through the service: the echo appended to the page is marked
      encrypted exactly when the service encrypted the text under the
      conversation's key, and nothing is appended before the transport
      accepts the message. */
  lemma EchoCarriesServiceFlag(st: ChatState, input: Input, ownId: nat, encrypt: Synchronizer.Encrypt, accepted: Promise<()>)
    requires st.messages.Some?
    ensures var run := Synchronizer.SendMessage(st.dialog.peer, Outgoing(input), ownId, encrypt, accepted);
            var r := SendMessage(st, input, run.result);
            && (accepted.Fulfilled? ==>
                  && r.state.messages.Some?
                  && |r.state.messages.value| == |st.messages.value| + 1
                  && r.state.messages.value[|st.messages.value|].encrypted
                       == encrypt(InputText(input), ownId, Identity.GroupIdOf(st.dialog.peer, ownId)).1)
            && (!accepted.Fulfilled? ==> r.state == st)
  {
  }

  /** `getColor(message)`. */
  function GetColor(m: Option<Message>): (r: string)
    ensures m.None? ==> r == ""
    ensures m.Some? && m.value.encrypted && m.value.isOwn ==> r == "primary"
    ensures m.Some? && m.value.encrypted && !m.value.isOwn ==> r == "secondary"
    ensures m.Some? && !m.value.encrypted ==> r == "medium"
  {
    match m
    case None => ""
    case Some(msg) =>
      if msg.isOwn then (if msg.encrypted then "primary" else "medium")
      else (if msg.encrypted then "secondary" else "medium")
  }

  /** `getClasses(message)`: the side a message is drawn on, followed by a
      space and an encryption suffix that is empty either way. */
  function GetClasses(m: Option<Message>): (r: string)
    ensures m.None? ==> r == ""
    ensures m.Some? && m.value.isOwn ==> r == "ion-text-end left-pad "
    ensures m.Some? && !m.value.isOwn ==> r == "right-pad "
  {
    match m
    case None => ""
    case Some(msg) =>
      var side := if msg.isOwn then "ion-text-end left-pad" else "right-pad";
      var suffix := if msg.encrypted then "" else "";
      side + " " + suffix
  }

  /** Colour tells encrypted own, encrypted foreign and unencrypted messages
      apart, while the classes see only who wrote a message. */
  lemma PresentationSeparates(a: Message, b: Message)
    ensures GetColor(Some(a)) == GetColor(Some(b)) <==>
              a.encrypted == b.encrypted && (a.encrypted ==> a.isOwn == b.isOwn)
    ensures GetClasses(Some(a)) == GetClasses(Some(b)) <==> a.isOwn == b.isOwn
  {
    assert "primary" != "medium" && "secondary" != "medium" && "primary" != "secondary";
    assert "ion-text-end left-pad " != "right-pad ";
  }

  /** As written: in a conversation with no messages the first answer's hash
      is 0, equal to the initial hash, so `messages` stays undefined; sending
      then delivers the message but throws when echoing it, and the page
      shows nothing. */
  lemma EmptyConversationDropsEcho(dialog: Dialog, users: seq<RawUser>, ownId: nat, decrypt: Synchronizer.Decrypt,
                                   input: Input, encrypted: bool)
    ensures var st := Initial(dialog);
            var run := Synchronizer.GetMessages(dialog.peer, HistoryLimit, st.hash, Fulfilled(Synchronizer.History([], users)), ownId, decrypt);
            var entered := Refresh(st, run.result);
            var sent := SendMessage(entered.state, input, Fulfilled(encrypted));
            && entered.state.messages.None?
            && sent.fault == Some(NullList)
            && sent.state.messages.None?
  {
    assert Synchronizer.Ids([]) == [];
  }

  /** Corrected: the page with its message list initialised to empty. */
  function InitialFixed(dialog: Dialog): (st: ChatState)
    ensures st.messages == Some([]) && st.hash == 0 && st.dialog == dialog
  {
    ChatState(dialog, Some([]), 0, "")
  }

  /** With the list initialised, every refresh from the synchronizer keeps a
      defined list and every accepted send appends its echo without
      throwing, so the page never loses a sent message. */
  lemma FixedPageKeepsEcho(st: ChatState, h: Synchronizer.History, ownId: nat, decrypt: Synchronizer.Decrypt,
                           input: Input, encrypted: bool)
    requires st.messages.Some?
    ensures var run := Synchronizer.GetMessages(st.dialog.peer, HistoryLimit, st.hash, Fulfilled(h), ownId, decrypt);
            Refresh(st, run.result).state.messages.Some?
    ensures var sent := SendMessage(st, input, Fulfilled(encrypted));
            && sent.fault.None?
            && sent.state.messages == Some(st.messages.value + [Outgoing(input).(encrypted := encrypted)])
  {
    var sent := SendMessage(st, input, Fulfilled(encrypted));
    var before := st.messages.value;
    assert sent.state.messages.value == before + [Outgoing(input).(encrypted := encrypted)];
  }
}

=== FILE: decimal.dfy ===
/** Decimal rendering of non-negative integers (JS `String(n)` / `n + ""`) and
    the inverse conversion JS `Number(str)` on the strings this overlay parses. */
module Decimal {

  import opened Base

  /** The value of JS `Number(...)`: a non-negative integer or NaN. */
  datatype JsNumber = Num(n: nat) | NaN

  predicate IsDigit(c: char) {
    '0' <= c <= '9'
  }

  predicate IsDigits(s: string) {
    forall i :: 0 <= i < |s| ==> IsDigit(s[i])
  }

  function DigitChar(d: nat): (c: char)
    requires d < 10
    ensures IsDigit(c)
  {
    (48 + d) as char
  }

  function DigitValue(c: char): (d: nat)
    requires IsDigit(c)
    ensures d < 10
  {
    (c as int) - 48
  }

  /** Shortest decimal rendering of `n`, most significant digit first. */
  function NatToString(n: nat): (s: string)
    ensures 1 <= |s|
    ensures IsDigits(s)
    decreases n
  {
    if n < 10 then [DigitChar(n)] else NatToString(n / 10) + [DigitChar(n % 10)]
  }

  /** The number a non-empty run of decimal digits denotes. */
  function DigitsValue(s: string): nat
    requires IsDigits(s)
    decreases |s|
  {
    if |s| == 0 then 0 else DigitsValue(s[..|s| - 1]) * 10 + DigitValue(s[|s| - 1])
  }

  /** JS `Number(str)` restricted to the empty string (0) and plain digit
      strings; every other string is NaN here. */
  function ToNumber(s: string): (r: JsNumber)
    ensures r.Num? <==> IsDigits(s)
    ensures |s| == 0 ==> r == Num(0)
  {
    if IsDigits(s) then Num(DigitsValue(s)) else NaN
  }

  /** JS `Number(undefined)`, the value of a missing split piece, is NaN. */
  function ToNumberOpt(s: Option<string>): (r: JsNumber)
    ensures s.None? ==> r == NaN
  {
    match s
    case None => NaN
    case Some(t) => ToNumber(t)
  }

  /** Parsing a rendered number gives the number back. */
  lemma {:induction false} NatToStringRoundTrip(n: nat)
    ensures ToNumber(NatToString(n)) == Num(n)
    decreases n
  {
    var s := NatToString(n);
    if n < 10 {
      assert s[..0] == [];
    } else {
      NatToStringRoundTrip(n / 10);
      var p := NatToString(n / 10);
      assert s[..|s| - 1] == p;
      assert DigitsValue(s) == DigitsValue(p) * 10 + n % 10;
    }
  }

  /** Distinct numbers render as distinct strings. */
  lemma NatToStringInjective(a: nat, b: nat)
    ensures NatToString(a) == NatToString(b) <==> a == b
  {
    if NatToString(a) == NatToString(b) {
      NatToStringRoundTrip(a);
      NatToStringRoundTrip(b);
    }
  }

  /** A digit string never holds a non-digit character. */
  lemma NonDigitNotIn(s: string, c: char)
    requires IsDigits(s)
    requires !IsDigit(c)
    ensures c !in s
  {
  }
}

=== FILE: hashing.dfy ===
/** The change-detection hash `calculateItemHash` over the ids of a fetched
    message list. The source masks with `& 0x7FFFFFFF`; on the non-negative
    integers involved that keeps the low 31 bits, i.e. reduces modulo 2^31. */
module ItemHash {

  const Multiplier := 0x4F25
  const Modulus := 0x8000_0000

  /** One step of the hash: fold the next id into the running value. */
  function Step(h: nat, id: nat): (r: nat)
    ensures r < Modulus
  {
    ((h * Multiplier) % Modulus + id) % Modulus
  }

  /** The hash of a list of ids, folded from the first to the last. */
  function Hash(ids: seq<nat>): (r: nat)
    ensures r < Modulus
    ensures |ids| == 0 ==> r == 0
    decreases |ids|
  {
    if |ids| == 0 then 0 else Step(Hash(ids[..|ids| - 1]), ids[|ids| - 1])
  }

  /** `calculateItemHash` as the source writes it: a loop over the items. */
  method CalculateItemHash(ids: seq<nat>) returns (h: nat)
    ensures h == Hash(ids)
    ensures h < Modulus
  {
    h := 0;
    var i := 0;
    while i < |ids|
      invariant 0 <= i <= |ids|
      invariant h == Hash(ids[..i])
    {
      assert ids[..i + 1][..i] == ids[..i];
      h := Step(h, ids[i]);
      i := i + 1;
    }
    assert ids[..|ids|] == ids;
  }

  /** The hash read as a polynomial in the multiplier: the first id carries
      the highest power. */
  function Poly(ids: seq<nat>): nat
    decreases |ids|
  {
    if |ids| == 0 then 0 else Poly(ids[..|ids| - 1]) * Multiplier + ids[|ids| - 1]
  }

  lemma ModMulLeft(a: nat, k: nat, m: nat)
    requires m > 0
    ensures ((a % m) * k) % m == (a * k) % m
  {
    var q := a / m;
    var r := a % m;
    assert a == q * m + r;
    assert a * k == (q * k) * m + r * k;
    ModAddMultiple(r * k, q * k, m);
  }

  /** Division with remainder has one answer. */
  lemma DivModUnique(y: int, m: int, d: int, r: int)
    requires m > 0 && 0 <= r < m && y == d * m + r
    ensures y % m == r
  {
    var k := d - y / m;
    assert k * m == y % m - r;
  }

  lemma ModAddMultiple(x: nat, q: nat, m: nat)
    requires m > 0
    ensures (q * m + x) % m == x % m
  {
    var t := x / m;
    var u := x % m;
    assert x == t * m + u;
    assert q * m + x == (q + t) * m + u;
    DivModUnique(q * m + x, m, q + t, u);
  }

  lemma ModAddLeft(a: nat, x: nat, m: nat)
    requires m > 0
    ensures ((a % m) + x) % m == (a + x) % m
  {
    var q := a / m;
    assert a == q * m + a % m;
    ModAddMultiple(a % m + x, q, m);
  }

  /** The folded hash equals the polynomial reduced once modulo 2^31: the
      intermediate masking loses nothing. */
  lemma {:induction false} HashIsPolyMod(ids: seq<nat>)
    ensures Hash(ids) == Poly(ids) % Modulus
    decreases |ids|
  {
    if |ids| > 0 {
      var init := ids[..|ids| - 1];
      var last := ids[|ids| - 1];
      HashIsPolyMod(init);
      var p := Poly(init);
      calc {
        Hash(ids);
        ((Hash(init) * Multiplier) % Modulus + last) % Modulus;
        { ModMulLeft(p, Multiplier, Modulus); }
        ((p * Multiplier) % Modulus + last) % Modulus;
        { ModAddLeft(p * Multiplier, last, Modulus); }
        (p * Multiplier + last) % Modulus;
      }
    }
  }

  /** Appending an id extends the hash by exactly one step, so equal
      prefixes stay equal under equal extensions. */
  lemma HashAppend(ids: seq<nat>, id: nat)
    ensures Hash(ids + [id]) == Step(Hash(ids), id)
  {
    assert (ids + [id])[..|ids|] == ids;
  }

  /** The hash sees the order of the ids: `[1, 2]` and `[2, 1]` differ. */
  lemma OrderSensitive()
    ensures Hash([1, 2]) == 20263
    ensures Hash([2, 1]) == 40523
  {
    assert [1, 2][..1] == [1];
    assert [2, 1][..1] == [2];
    assert [1][..0] == [];
    assert [2][..0] == [];
  }
}

=== FILE: identity.dfy ===
/** Group identity: the key under which the encryption layer keeps the
    shared state of a conversation (`getGroupId`). A direct chat is keyed by
    both user ids, smaller first, so both parties derive the same key; a
    group or channel is keyed by its own id. */
module Identity {

  import opened Base
  import opened Decimal
  import opened JsString
  import opened Records

  const Separator := "_"

  /** The key of the direct chat between users `a` and `b`:
      `<smaller>_<larger>` in decimal. */
  function DirectGroupId(a: nat, b: nat): string {
    if a < b then NatToString(a) + Separator + NatToString(b)
    else NatToString(b) + Separator + NatToString(a)
  }

  /** `getGroupId(peer)` for the local user `ownId`. */
  function GroupIdOf(peer: Peer, ownId: nat): (r: string)
    ensures peer.kind.UserPeer? ==> r == DirectGroupId(ownId, peer.id)
    ensures !peer.kind.UserPeer? ==> r == NatToString(peer.id)
  {
    if peer.kind.UserPeer? then DirectGroupId(ownId, peer.id) else NatToString(peer.id)
  }

  function Min(a: nat, b: nat): nat { if a < b then a else b }

  function Max(a: nat, b: nat): nat { if a < b then b else a }

  /** Reads a direct-chat key back into its two user ids. */
  function ParseDirectGroupId(g: string): Option<(nat, nat)> {
    var parts := Split(g, Separator);
    if |parts| == 2 && ToNumber(parts[0]).Num? && ToNumber(parts[1]).Num? then
      Some((ToNumber(parts[0]).n, ToNumber(parts[1]).n))
    else None
  }

  /** Both parties of a direct chat derive the same key, and the key names
      the two users, smaller first. */
  lemma {:induction false} DirectGroupIdSymmetricAndDecodable(a: nat, b: nat)
    ensures DirectGroupId(a, b) == DirectGroupId(b, a)
    ensures ParseDirectGroupId(DirectGroupId(a, b)) == Some((Min(a, b), Max(a, b)))
    ensures DirectGroupId(a, b) == NatToString(Min(a, b)) + Separator + NatToString(Max(a, b))
  {
    var lo := NatToString(Min(a, b));
    var hi := NatToString(Max(a, b));
    NonDigitNotIn(lo, '_');
    NonDigitNotIn(hi, '_');
    SplitAroundOne(lo, Separator, hi);
    NatToStringRoundTrip(Min(a, b));
    NatToStringRoundTrip(Max(a, b));
  }

  /** Two direct chats share a key exactly when they are between the same
      two users. */
  lemma DirectGroupIdInjective(a: nat, b: nat, c: nat, d: nat)
    ensures DirectGroupId(a, b) == DirectGroupId(c, d) <==>
              Min(a, b) == Min(c, d) && Max(a, b) == Max(c, d)
  {
    DirectGroupIdSymmetricAndDecodable(a, b);
    DirectGroupIdSymmetricAndDecodable(c, d);
  }

  /** The end-to-end example: users 100 and 200 share the key "100_200". */
  lemma HundredAndTwoHundred()
    ensures DirectGroupId(100, 200) == "100_200"
    ensures DirectGroupId(200, 100) == "100_200"
  {
    assert NatToString(100) == "100" by {
      assert NatToString(10) == "10";
    }
    assert NatToString(200) == "200" by {
      assert NatToString(20) == "20";
    }
  }
}

=== FILE: jsstring.dfy ===
/** JS `String.prototype.split` with a non-empty string separator, which the
    RPC client uses to take error messages such as `FLOOD_WAIT_17` and
    `PHONE_MIGRATE_4` apart. */
module JsString {

  import opened Base

  /** `sep` occurs in `s` starting at index `k`. */
  predicate OccursAt(s: string, sep: string, k: nat) {
    k + |sep| <= |s| && s[k..k + |sep|] == sep
  }

  ghost predicate Contains(s: string, sep: string) {
    exists k: nat :: OccursAt(s, sep, k)
  }

  /** First occurrence of `sep` in `s` at or after `from`. */
  function FindFrom(s: string, sep: string, from: nat): (r: Option<nat>)
    requires |sep| > 0
    ensures r.Some? ==> from <= r.value && OccursAt(s, sep, r.value)
    ensures r.Some? ==> forall j: nat :: from <= j < r.value ==> !OccursAt(s, sep, j)
    ensures r.None? ==> forall j: nat :: from <= j ==> !OccursAt(s, sep, j)
    decreases |s| - from
  {
    if from + |sep| > |s| then None
    else if s[from..from + |sep|] == sep then Some(from)
    else FindFrom(s, sep, from + 1)
  }

  /** Index of the first occurrence of `sep` in `s` (JS `indexOf`). */
  function FindFirst(s: string, sep: string): (r: Option<nat>)
    requires |sep| > 0
    ensures r.Some? <==> Contains(s, sep)
    ensures r.Some? ==> OccursAt(s, sep, r.value)
    ensures r.Some? ==> forall j: nat :: j < r.value ==> !OccursAt(s, sep, j)
  {
    FindFrom(s, sep, 0)
  }

  /** The pieces of `s` between occurrences of `sep`, left to right. */
  function Split(s: string, sep: string): (parts: seq<string>)
    requires |sep| > 0
    ensures |parts| >= 1
    decreases |s|
  {
    match FindFirst(s, sep)
    case None => [s]
    case Some(k) => [s[..k]] + Split(s[k + |sep|..], sep)
  }

  /** JS `Array.prototype.join(sep)`. */
  function Join(parts: seq<string>, sep: string): string
    decreases |parts|
  {
    if |parts| == 0 then ""
    else if |parts| == 1 then parts[0]
    else parts[0] + sep + Join(parts[1..], sep)
  }

  /** JS `parts[i]`: `undefined` past the end. */
  function Piece(parts: seq<string>, i: nat): (r: Option<string>)
    ensures r.Some? <==> i < |parts|
  {
    if i < |parts| then Some(parts[i]) else None
  }

  /** Joining the pieces with the separator gives back the original string,
      and no piece contains the separator. */
  lemma {:induction false} SplitJoin(s: string, sep: string)
    requires |sep| > 0
    ensures Join(Split(s, sep), sep) == s
    ensures forall i :: 0 <= i < |Split(s, sep)| ==> !Contains(Split(s, sep)[i], sep)
    decreases |s|
  {
    match FindFirst(s, sep)
    case None =>
    case Some(k) =>
      var rest := s[k + |sep|..];
      SplitJoin(rest, sep);
      var tail := Split(rest, sep);
      assert Split(s, sep) == [s[..k]] + tail;
      assert s == s[..k] + sep + rest;
      NoEarlyOccurrence(s, sep, k);
  }

  /** A prefix that ends before the first occurrence holds no occurrence. */
  lemma NoEarlyOccurrence(s: string, sep: string, k: nat)
    requires |sep| > 0
    requires FindFirst(s, sep) == Some(k)
    ensures !Contains(s[..k], sep)
  {
    forall j: nat | OccursAt(s[..k], sep, j)
      ensures false
    {
      assert s[..k][j..j + |sep|] == s[j..j + |sep|];
      assert OccursAt(s, sep, j);
    }
  }

  /** A string without the separator's first character holds no occurrence. */
  lemma AbsentWithoutLead(s: string, sep: string)
    requires |sep| > 0
    requires sep[0] !in s
    ensures !Contains(s, sep)
  {
    forall k: nat
      ensures !OccursAt(s, sep, k)
    {
      if k + |sep| <= |s| {
        assert s[k..k + |sep|][0] == s[k];
      }
    }
  }

  /** `x + sep + y`, where neither side holds the separator's first
      character, splits into exactly `[x, y]`. */
  lemma {:induction false} SplitAroundOne(x: string, sep: string, y: string)
    requires |sep| > 0
    requires sep[0] !in x && sep[0] !in y
    ensures Split(x + sep + y, sep) == [x, y]
  {
    var s := x + sep + y;
    assert OccursAt(s, sep, |x|) by {
      assert s[|x|..|x| + |sep|] == sep;
    }
    var f := FindFirst(s, sep);
    assert f == Some(|x|) by {
      forall j: nat | j < |x|
        ensures !OccursAt(s, sep, j)
      {
        assert s[j] == x[j];
      }
    }
    assert s[..|x|] == x;
    assert s[|x| + |sep|..] == y;
    AbsentWithoutLead(y, sep);
    assert Split(y, sep) == [y];
  }

  /** A string without the separator is its own only piece. */
  lemma SplitWithout(s: string, sep: string)
    requires |sep| > 0
    requires !Contains(s, sep)
    ensures Split(s, sep) == [s]
  {
  }
}

=== FILE: records.dfy ===
/** The raw Telegram records the overlay reads (dialogs, messages, users,
    chats as MTProto delivers them) and the normalised records it hands to
    the pages, with the case analyses that turn one into the other
    (telegram.service.ts). */
module Records {

  import opened Base
  import opened Decimal

  /** MTProto `Peer`, tagged `peerUser` / `peerChat` / `peerChannel`. */
  datatype RawPeer = PeerUser(userId: nat) | PeerChat(chatId: nat) | PeerChannel(channelId: nat)

  /** The `action` of a `messageService` record. */
  datatype ServiceAction = ChatCreate | ChatAddUser | ChatDeleteUser | OtherAction(name: string)

  /** The constructor (`_`) of a raw message record with what it carries. */
  datatype RawKind = TextMessage(text: string) | ServiceMessage(action: ServiceAction) | EmptyMessage

  /** A raw message record. `fromId` and `peerId` are absent when the
      transport leaves the key out; `post` marks a channel post. */
  datatype RawMessage = RawMessage(kind: RawKind, id: nat, date: nat, fromId: Option<RawPeer>, peerId: Option<RawPeer>, post: bool)

  datatype RawUser = RawUser(id: nat, accessHash: string, firstName: string)

  datatype RawChat = RawChat(id: nat, accessHash: Option<string>, title: string)

  /** The `type` of a normalised peer: "peerUser", "peerChat", "peerChannel". */
  datatype PeerKind = UserPeer | ChatPeer | ChannelPeer

  /** A conversation partner as the overlay presents it; `members` are the
      decimal ids of a group's users. */
  datatype Peer = Peer(id: nat, accessHash: Option<string>, kind: PeerKind, name: string, members: seq<string>)

  /** A normalised message. `encrypted` says whether the text came out of a
      successful decryption. */
  datatype Message = Message(text: string, isOwn: bool, encrypted: bool, id: nat, date: nat, from: string)

  /** A conversation summary; `encrypted` is resolved later by a probe. */
  datatype Dialog = Dialog(peer: Peer, topMessage: Message, encrypted: bool)

  /** The transport's address of a peer (`inputPeerUser` / `inputPeerChat` /
      `inputPeerChannel`). */
  datatype InputPeer =
    | InputPeerUser(userId: nat, accessHash: Option<string>)
    | InputPeerChat(chatId: nat)
    | InputPeerChannel(channelId: nat, accessHash: Option<string>)

  const ChatCreatedText := "Chat was created"
  const UserAddedText := "User was added"
  const UserRemovedText := "User was removed"

  /** `peer["user_id"]`: only a user peer has one. */
  function UserIdOf(p: RawPeer): (r: Option<nat>)
    ensures r.Some? <==> p.PeerUser?
  {
    match p
    case PeerUser(u) => Some(u)
    case _ => None
  }

  /** `getUserFromList`: the first user whose id equals `id` (an undefined
      id matches nobody). */
  function UserFromList(id: Option<nat>, users: seq<RawUser>): (r: Option<RawUser>)
    ensures r.None? <==> id.None? || forall k :: 0 <= k < |users| ==> users[k].id != id.value
    ensures r.Some? ==> exists k :: 0 <= k < |users| && users[k] == r.value && id == Some(users[k].id)
                                   && forall j :: 0 <= j < k ==> users[j].id != r.value.id
    decreases |users|
  {
    if |users| == 0 || id.None? then None
    else if users[0].id == id.value then Some(users[0])
    else
      var r := UserFromList(id, users[1..]);
      assert forall k :: 1 <= k < |users| ==> users[k] == users[1..][k - 1];
      r
  }

  /** The chat lookup of `getDialogs`: the first chat whose id equals `id`. */
  function ChatFromList(id: nat, chats: seq<RawChat>): (r: Option<RawChat>)
    ensures r.None? <==> forall k :: 0 <= k < |chats| ==> chats[k].id != id
    ensures r.Some? ==> exists k :: 0 <= k < |chats| && chats[k] == r.value && chats[k].id == id
                                   && forall j :: 0 <= j < k ==> chats[j].id != id
    decreases |chats|
  {
    if |chats| == 0 then None
    else if chats[0].id == id then Some(chats[0])
    else
      var r := ChatFromList(id, chats[1..]);
      assert forall k :: 1 <= k < |chats| ==> chats[k] == chats[1..][k - 1];
      r
  }

  /** `isOwnMessage`: authored by the local user exactly when the record
      names a sender and that sender is the local user. */
  function IsOwnMessage(m: RawMessage, ownId: nat): (r: bool)
    ensures r <==> m.fromId == Some(PeerUser(ownId))
  {
    match m.fromId
    case None => false
    case Some(p) => UserIdOf(p) == Some(ownId)
  }

  /** The text a known service action is shown with. */
  function ServiceText(a: ServiceAction): string
    requires !a.OtherAction?
  {
    match a
    case ChatCreate => ChatCreatedText
    case ChatAddUser => UserAddedText
    case ChatDeleteUser => UserRemovedText
  }

  /** The record `extractMessage` falls back to for anything it does not
      recognise. */
  const DefaultMessage := Message("", true, true, 0, 0, "0")

  /** `extractMessage(record, id)`: a text record keeps its text and is
      marked encrypted; its author is `from_id.user_id`, and it counts as
      own when there is no `from_id` or that id is `id`. The three known
      service actions become fixed notices that are neither own nor
      encrypted. Everything else becomes the default record. */
  function ExtractMessage(m: RawMessage, id: nat): (r: Message)
    ensures m.kind.TextMessage? ==>
              && r.text == m.kind.text && r.encrypted && r.id == m.id && r.date == m.date
              && (r.isOwn <==> m.fromId.None? || m.fromId == Some(PeerUser(id)))
              && (m.fromId.None? ==> r.from == "0")
              && (m.fromId.Some? && m.fromId.value.PeerUser? ==> r.from == NatToString(m.fromId.value.userId))
    ensures m.kind.ServiceMessage? && !m.kind.action.OtherAction? ==>
              && r == Message(ServiceText(m.kind.action), false, false, m.id, m.date, "")
    ensures m.kind.EmptyMessage? || (m.kind.ServiceMessage? && m.kind.action.OtherAction?) ==>
              r == DefaultMessage
    // only a recognised service notice is shown as unencrypted
    ensures !r.encrypted <==> m.kind.ServiceMessage? && !m.kind.action.OtherAction?
  {
    match m.kind
    case TextMessage(text) =>
      var from := match m.fromId
        case None => "0"
        case Some(PeerUser(u)) => NatToString(u)
        case Some(_) => "";
      var isOwn := match m.fromId
        case None => true
        case Some(p) => UserIdOf(p) == Some(id);
      Message(text, isOwn, true, m.id, m.date, from)
    case ServiceMessage(action) =>
      if action.OtherAction? then DefaultMessage
      else Message(ServiceText(action), false, false, m.id, m.date, "")
    case EmptyMessage => DefaultMessage
  }

  /** The user id `getMessageSender` looks up: `from_id.user_id` when the
      record names a sender, else `peer_id.user_id`. */
  function SenderId(m: RawMessage): Option<nat> {
    match m.fromId
    case Some(p) => UserIdOf(p)
    case None => if m.peerId.Some? then UserIdOf(m.peerId.value) else None
  }

  /** `getMessageSender`: channel posts have no sender name; otherwise the
      first name of the user the record points at, and a lookup that finds
      no user throws. */
  function GetMessageSender(m: RawMessage, users: seq<RawUser>): (r: Result<string>)
    ensures m.post ==> r == Ok("")
    ensures !m.post ==>
              (r.Ok? <==> SenderId(m).Some? && exists k :: 0 <= k < |users| && users[k].id == SenderId(m).value)
    ensures !m.post && r.Ok? ==>
              exists k :: 0 <= k < |users| && users[k].id == SenderId(m).value && r.value == users[k].firstName
                          && forall j :: 0 <= j < k ==> users[j].id != users[k].id
    ensures r.Err? ==> r.fault == UnknownUser(SenderId(m))
  {
    if m.post then Ok("")
    else
      var id := SenderId(m);
      match UserFromList(id, users)
      case None => Err(UnknownUser(id))
      case Some(u) => Ok(u.firstName)
  }

  /** `getTelegramInputPeer`: the transport address of a peer. Users and
      channels are addressed with their access hash, basic groups without. */
  function InputPeerOf(peer: Peer): (r: InputPeer)
    ensures peer.kind.UserPeer? <==> r.InputPeerUser?
    ensures peer.kind.ChatPeer? <==> r.InputPeerChat?
    ensures peer.kind.ChannelPeer? <==> r.InputPeerChannel?
    ensures r.InputPeerUser? ==> r.userId == peer.id && r.accessHash == peer.accessHash
    ensures r.InputPeerChat? ==> r.chatId == peer.id
    ensures r.InputPeerChannel? ==> r.channelId == peer.id && r.accessHash == peer.accessHash
  {
    match peer.kind
    case UserPeer => InputPeerUser(peer.id, peer.accessHash)
    case ChatPeer => InputPeerChat(peer.id)
    case ChannelPeer => InputPeerChannel(peer.id, peer.accessHash)
  }

  /** Two peers get the same transport address exactly when they agree on
      id and kind, and on the access hash unless they are basic groups. */
  lemma InputPeerIdentifies(a: Peer, b: Peer)
    ensures InputPeerOf(a) == InputPeerOf(b) <==>
              a.id == b.id && a.kind == b.kind && (a.kind.ChatPeer? || a.accessHash == b.accessHash)
  {
  }
}

=== FILE: sync.dfy ===
/** The conversation synchronizer of `TelegramService`: the dialog list,
    the message history of one conversation and sending. The transport's
    answers arrive as settled promises, and the encryption layer's
    `Message.decrypt` / `Message.encrypt` are function parameters. */
module Synchronizer {

  import opened Base
  import opened Decimal
  import opened Records
  import opened Identity
  import ItemHash

  /** `Message.decrypt(payload, timestampMs, 'telegram', ownId, groupId)`:
      the plaintext and whether decryption succeeded. */
  type Decrypt = (string, nat, nat, string) -> (string, bool)

  /** `Message.encrypt(text, 'telegram', ownId, groupId)`: the payload to
      send and whether it is encrypted. */
  type Encrypt = (string, nat, string) -> (string, bool)

  /** What `messages.getFullChat` answers for a chat id: its users. */
  type FullChat = nat -> Promise<seq<RawUser>>

  /** `getGroupMembers(id, accessHash, type)`: the decimal ids of a basic
      group's users, fetched from the transport; nothing for direct chats
      and channels, which are never asked. */
  function GetGroupMembers(id: nat, kind: PeerKind, fullChat: FullChat): (r: Promise<seq<string>>)
    ensures !kind.ChatPeer? ==> r == Fulfilled([])
    ensures kind.ChatPeer? && fullChat(id).Fulfilled? ==>
              r.Fulfilled? && |r.value| == |fullChat(id).value|
              && forall i :: 0 <= i < |r.value| ==> r.value[i] == NatToString(fullChat(id).value[i].id)
    ensures kind.ChatPeer? && !fullChat(id).Fulfilled? ==> r == fullChat(id).Forward()
  {
    match kind
    case UserPeer => Fulfilled([])
    case ChannelPeer => Fulfilled([])
    case ChatPeer =>
      match fullChat(id)
      case Fulfilled(users) => Fulfilled(seq(|users|, i requires 0 <= i < |users| => NatToString(users[i].id)))
      case Rejected(f) => Rejected(f)
      case Pending => Pending
  }

  /** The id a raw dialog peer carries. */
  function RawPeerId(p: RawPeer): nat {
    match p
    case PeerUser(u) => u
    case PeerChat(c) => c
    case PeerChannel(c) => c
  }

  function KindOf(p: RawPeer): PeerKind {
    match p
    case PeerUser(_) => UserPeer
    case PeerChat(_) => ChatPeer
    case PeerChannel(_) => ChannelPeer
  }

  /** The lookup of `extractPeer` finds the peer: a user among the
      answer's users, a group or channel among its chats. */
  predicate Found(p: RawPeer, users: seq<RawUser>, chats: seq<RawChat>) {
    if p.PeerUser? then UserFromList(Some(p.userId), users).Some? else ChatFromList(RawPeerId(p), chats).Some?
  }

  /** The `extractPeer` helper of `getDialogs`: looks the peer up in the
      users or chats of the same answer, takes its access hash (none for a
      basic group) and name, and fetches its members. A lookup that finds
      nothing throws. */
  function ExtractPeer(p: RawPeer, users: seq<RawUser>, chats: seq<RawChat>, fullChat: FullChat): (r: Promise<Peer>)
    ensures r.Fulfilled? ==> r.value.id == RawPeerId(p) && r.value.kind == KindOf(p)
    ensures r.Fulfilled? && p.PeerChat? ==> r.value.accessHash.None?
    ensures r.Fulfilled? && p.PeerUser? ==>
              var u := UserFromList(Some(p.userId), users);
              u.Some? && r.value.accessHash == Some(u.value.accessHash) && r.value.name == u.value.firstName
    ensures r.Fulfilled? ==> GetGroupMembers(RawPeerId(p), KindOf(p), fullChat) == Fulfilled(r.value.members)
    ensures r.Fulfilled? && !p.PeerUser? ==>
              var c := ChatFromList(RawPeerId(p), chats);
              c.Some? && r.value.name == c.value.title && (p.PeerChannel? ==> r.value.accessHash == c.value.accessHash)
    ensures p.PeerUser? && UserFromList(Some(p.userId), users).None? ==> r == Rejected(UnknownUser(Some(p.userId)))
    ensures !p.PeerUser? && ChatFromList(RawPeerId(p), chats).None? ==> r == Rejected(UnknownChat(RawPeerId(p)))
    // a peer found in the answer is delivered once its members are
    ensures Found(p, users, chats) ==>
              var members := GetGroupMembers(RawPeerId(p), KindOf(p), fullChat);
              (r.Fulfilled? <==> members.Fulfilled?) && (!members.Fulfilled? ==> r == members.Forward())
  {
    var id := RawPeerId(p);
    var kind := KindOf(p);
    match p
    case PeerUser(u) =>
      (match UserFromList(Some(u), users)
       case None => Rejected(UnknownUser(Some(u)))
       case Some(user) => WithMembers(Peer(u, Some(user.accessHash), kind, user.firstName, []), fullChat))
    case PeerChannel(c) =>
      (match ChatFromList(c, chats)
       case None => Rejected(UnknownChat(c))
       case Some(chat) => WithMembers(Peer(c, chat.accessHash, kind, chat.title, []), fullChat))
    case PeerChat(c) =>
      (match ChatFromList(c, chats)
       case None => Rejected(UnknownChat(c))
       case Some(chat) => WithMembers(Peer(c, None, kind, chat.title, []), fullChat))
  }

  /** Completes a looked-up peer with its member list once that arrives. */
  function WithMembers(peer: Peer, fullChat: FullChat): (r: Promise<Peer>)
    ensures r.Fulfilled? ==> r.value == peer.(members := r.value.members)
    ensures r.Fulfilled? <==> GetGroupMembers(peer.id, peer.kind, fullChat).Fulfilled?
    ensures r.Fulfilled? ==> GetGroupMembers(peer.id, peer.kind, fullChat) == Fulfilled(r.value.members)
  {
    match GetGroupMembers(peer.id, peer.kind, fullChat)
    case Fulfilled(members) => Fulfilled(peer.(members := members))
    case Rejected(f) => Rejected(f)
    case Pending => Pending
  }

  /** The answer of `messages.getDialogs`: users, chats, one peer per
      dialog, and the top messages, meant to line up with the dialogs. */
  datatype DialogsAnswer = DialogsAnswer(users: seq<RawUser>, chats: seq<RawChat>, dialogs: seq<RawPeer>, messages: seq<RawMessage>)

  /** The top message of dialog `i`: the `i`-th raw message, normalised
      for the local user and decrypted in the dialog's group. */
  function TopMessage(raw: RawMessage, ownId: nat, groupId: string, decrypt: Decrypt): (r: Message)
    ensures var m := ExtractMessage(raw, ownId);
            var (plain, ok) := decrypt(m.text, m.date * 1000, ownId, groupId);
            r == m.(text := plain, encrypted := ok)
  {
    var m := ExtractMessage(raw, ownId);
    var (plain, ok) := decrypt(m.text, m.date * 1000, ownId, groupId);
    Message(plain, m.isOwn, ok, m.id, m.date, m.from)
  }

  /** `d` is what `getDialogs` builds for dialog `j` of the answer. */
  predicate BuiltFrom(answer: DialogsAnswer, j: nat, d: Dialog, ownId: nat, fullChat: FullChat, decrypt: Decrypt) {
    && j < |answer.dialogs| && j < |answer.messages|
    && ExtractPeer(answer.dialogs[j], answer.users, answer.chats, fullChat) == Fulfilled(d.peer)
    && d.topMessage == TopMessage(answer.messages[j], ownId, GroupIdOf(d.peer, ownId), decrypt)
    && !d.encrypted
  }

  /** The dialog `getDialogs` builds for raw dialog `j`: a peer missing
      from the answer or a missing top message throws. */
  function DialogAt(answer: DialogsAnswer, j: nat, ownId: nat, fullChat: FullChat, decrypt: Decrypt): (r: Promise<Dialog>)
    requires j < |answer.dialogs|
    ensures r.Fulfilled? ==> BuiltFrom(answer, j, r.value, ownId, fullChat, decrypt)
    ensures var peer := ExtractPeer(answer.dialogs[j], answer.users, answer.chats, fullChat);
            && (!peer.Fulfilled? ==> r == peer.Forward())
            && (peer.Fulfilled? && j < |answer.messages| ==> r.Fulfilled?)
            && (peer.Fulfilled? && j >= |answer.messages| ==> r == Rejected(MissingRecord(j)))
  {
    match ExtractPeer(answer.dialogs[j], answer.users, answer.chats, fullChat)
    case Rejected(f) => Rejected(f)
    case Pending => Pending
    case Fulfilled(peer) =>
      if j >= |answer.messages| then Rejected(MissingRecord(j))
      else Fulfilled(Dialog(peer, TopMessage(answer.messages[j], ownId, GroupIdOf(peer, ownId), decrypt), false))
  }

  /** `getDialogs()`: one dialog per raw dialog, in the transport's order,
      each with its peer, its decrypted top message and `encrypted` still
      false. Fails when the fetch fails, a peer is missing from the answer,
      or there are fewer top messages than dialogs. */
  function GetDialogs(fetched: Promise<DialogsAnswer>, ownId: nat, fullChat: FullChat, decrypt: Decrypt): (r: Promise<seq<Dialog>>)
    ensures !fetched.Fulfilled? ==> r == fetched.Forward()
    ensures fetched.Fulfilled? && r.Fulfilled? ==>
              var a := fetched.value;
              && |r.value| == |a.dialogs|
              && (|a.dialogs| == 0 || |a.dialogs| <= |a.messages|)
              && forall i :: 0 <= i < |r.value| ==>
                   && ExtractPeer(a.dialogs[i], a.users, a.chats, fullChat) == Fulfilled(r.value[i].peer)
                   && r.value[i].peer.id == RawPeerId(a.dialogs[i])
                   && r.value[i].peer.kind == KindOf(a.dialogs[i])
                   && !r.value[i].encrypted
                   && r.value[i].topMessage == TopMessage(a.messages[i], ownId, GroupIdOf(r.value[i].peer, ownId), decrypt)
  {
    match fetched
    case Rejected(f) => Rejected(f)
    case Pending => Pending
    case Fulfilled(answer) =>
      var n := |answer.dialogs|;
      var built := seq(n, j requires 0 <= j < n => DialogAt(answer, j, ownId, fullChat, decrypt));
      var r := AwaitEach(built);
      assert r.Fulfilled? && n > 0 ==> built[n - 1].Fulfilled?;
      r
  }

  /** The dialog list is delivered exactly when every raw dialog can be
      built. */
  lemma GetDialogsSucceedsIff(answer: DialogsAnswer, ownId: nat, fullChat: FullChat, decrypt: Decrypt)
    ensures GetDialogs(Fulfilled(answer), ownId, fullChat, decrypt).Fulfilled? <==>
              forall j :: 0 <= j < |answer.dialogs| ==> DialogAt(answer, j, ownId, fullChat, decrypt).Fulfilled?
    ensures GetDialogs(Fulfilled(answer), ownId, fullChat, decrypt).Fulfilled? <==>
              && (forall j :: 0 <= j < |answer.dialogs| ==> ExtractPeer(answer.dialogs[j], answer.users, answer.chats, fullChat).Fulfilled?)
              && (|answer.dialogs| == 0 || |answer.dialogs| <= |answer.messages|)
  {
    var n := |answer.dialogs|;
    var built := seq(n, j requires 0 <= j < n => DialogAt(answer, j, ownId, fullChat, decrypt));
    assert GetDialogs(Fulfilled(answer), ownId, fullChat, decrypt) == AwaitEach(built);
    assert forall j :: 0 <= j < n ==> built[j] == DialogAt(answer, j, ownId, fullChat, decrypt);
    if n > 0 && n > |answer.messages| {
      assert !built[n - 1].Fulfilled?;
    }
  }

  /** A dialog list that ends in a dialog without a top message fails. */
  lemma {:induction false} TooFewTopMessagesFail(answer: DialogsAnswer, ownId: nat, fullChat: FullChat, decrypt: Decrypt)
    requires |answer.messages| < |answer.dialogs|
    ensures !GetDialogs(Fulfilled(answer), ownId, fullChat, decrypt).Fulfilled?
  {
  }

  /** The answer of `messages.getHistory`: a message list with its users, or
      the `messagesNotModified` answer, which carries no list. */
  datatype History = History(messages: seq<RawMessage>, users: seq<RawUser>) | NotModified

  /** What `getMessages` asks the transport for. */
  datatype HistoryRequest = HistoryRequest(peer: InputPeer, limit: nat, hash: nat)

  /** One call of `Message.decrypt`, with its arguments. */
  datatype DecryptCall = DecryptCall(payload: string, timestampMs: nat, ownId: nat, groupId: string)

  /** `{ messages, hash }`; `messages` is null when nothing changed. */
  datatype MessagesResponse = MessagesResponse(messages: Option<seq<Message>>, hash: nat)

  /** A run of `getMessages`: the request it sent, how its promise settled,
      and the decrypt calls it made, in order. */
  datatype MessagesRun = MessagesRun(request: HistoryRequest, result: Promise<MessagesResponse>, decryptCalls: seq<DecryptCall>)

  function Ids(records: seq<RawMessage>): (ids: seq<nat>)
    ensures |ids| == |records|
    ensures forall i :: 0 <= i < |records| ==> ids[i] == records[i].id
  {
    seq(|records|, i requires 0 <= i < |records| => records[i].id)
  }

  /** The `map` step of `getMessages`: each record's text (through
      `extractMessage`), authorship, id, date and sender name, marked
      encrypted. A sender lookup that throws fails the whole list. */
  function Prepare(records: seq<RawMessage>, users: seq<RawUser>, ownId: nat): (r: Result<seq<Message>>)
    ensures r.Ok? <==> forall i :: 0 <= i < |records| ==> GetMessageSender(records[i], users).Ok?
    ensures r.Ok? ==> |r.value| == |records|
    ensures r.Err? ==> exists k :: 0 <= k < |records| && r.fault == UnknownUser(SenderId(records[k]))
    ensures r.Ok? ==> forall i :: 0 <= i < |records| ==>
              r.value[i] == Message(ExtractMessage(records[i], records[i].id).text, IsOwnMessage(records[i], ownId), true,
                                    records[i].id, records[i].date, GetMessageSender(records[i], users).value)
    decreases |records|
  {
    if |records| == 0 then Ok([])
    else
      var m := records[0];
      match GetMessageSender(m, users)
      case Err(f) => Err(f)
      case Ok(from) =>
        var head := Message(ExtractMessage(m, m.id).text, IsOwnMessage(m, ownId), true, m.id, m.date, from);
        assert forall i :: 1 <= i < |records| ==> records[i] == records[1..][i - 1];
        match Prepare(records[1..], users, ownId)
        case Err(f) => Err(f)
        case Ok(rest) => Ok([head] + rest)
  }

  /** The decrypt call for one prepared message: its text, its date in
      milliseconds, the local user and the conversation's key. */
  function CallFor(m: Message, ownId: nat, groupId: string): DecryptCall {
    DecryptCall(m.text, m.date * 1000, ownId, groupId)
  }

  /** The decrypt loop of `getMessages`, in order: text and `encrypted`
      from decrypt, everything else kept. */
  function DecryptAll(ms: seq<Message>, ownId: nat, groupId: string, decrypt: Decrypt): (r: seq<Message>)
    ensures |r| == |ms|
    ensures forall i :: 0 <= i < |ms| ==>
              var (plain, ok) := decrypt(ms[i].text, ms[i].date * 1000, ownId, groupId);
              r[i] == ms[i].(text := plain, encrypted := ok)
    decreases |ms|
  {
    if |ms| == 0 then []
    else
      var (plain, ok) := decrypt(ms[0].text, ms[0].date * 1000, ownId, groupId);
      assert forall i :: 1 <= i < |ms| ==> ms[i] == ms[1..][i - 1];
      [ms[0].(text := plain, encrypted := ok)] + DecryptAll(ms[1..], ownId, groupId, decrypt)
  }

  /** `ms` and `calls` are what the normal path of `getMessages` makes of
      the history `h`: one message per record, in fetch order, with id,
      date, authorship and sender copied, and text and `encrypted` from one
      decrypt call per record, made with the date in milliseconds and the
      conversation's key `groupId`. */
  predicate Normalised(h: History, ms: seq<Message>, calls: seq<DecryptCall>, ownId: nat, groupId: string, decrypt: Decrypt) {
    && h.History?
    && |ms| == |h.messages| == |calls|
    && forall i :: 0 <= i < |ms| ==>
         var raw := h.messages[i];
         && ms[i].id == raw.id && ms[i].date == raw.date
         && (ms[i].isOwn <==> raw.fromId == Some(PeerUser(ownId)))
         && GetMessageSender(raw, h.users) == Ok(ms[i].from)
         && calls[i] == DecryptCall(ExtractMessage(raw, raw.id).text, raw.date * 1000, ownId, groupId)
         && (ms[i].text, ms[i].encrypted) == decrypt(ExtractMessage(raw, raw.id).text, raw.date * 1000, ownId, groupId)
  }

  /** The decrypt calls of the normal path, one per prepared message. */
  function CallsFor(prepared: seq<Message>, ownId: nat, groupId: string): (calls: seq<DecryptCall>)
    ensures |calls| == |prepared|
    ensures forall i :: 0 <= i < |prepared| ==> calls[i] == CallFor(prepared[i], ownId, groupId)
  {
    seq(|prepared|, i requires 0 <= i < |prepared| => CallFor(prepared[i], ownId, groupId))
  }

  /** Preparing and then decrypting a history normalises it. */
  lemma PreparedIsNormalised(h: History, prepared: seq<Message>, ownId: nat, groupId: string, decrypt: Decrypt)
    requires h.History? && Prepare(h.messages, h.users, ownId) == Ok(prepared)
    ensures Normalised(h, DecryptAll(prepared, ownId, groupId, decrypt), CallsFor(prepared, ownId, groupId), ownId, groupId, decrypt)
  {
  }

  /** `getMessages(peer, limit, hash)`. */
  function GetMessages(peer: Peer, limit: nat, hash: nat, fetched: Promise<History>, ownId: nat, decrypt: Decrypt): (r: MessagesRun)
    ensures r.request == HistoryRequest(InputPeerOf(peer), limit, hash)
    ensures !fetched.Fulfilled? ==> r.result == fetched.Forward() && r.decryptCalls == []
    ensures r.result.Pending? ==> fetched.Pending?
    // an answer without a list makes the hash loop throw
    ensures fetched == Fulfilled(NotModified) ==> r.result == Rejected(NotIterable) && r.decryptCalls == []
    // an unchanged list short-circuits with the caller's hash and decrypts nothing
    ensures fetched.Fulfilled? && fetched.value.History? && ItemHash.Hash(Ids(fetched.value.messages)) == hash ==>
              r.result == Fulfilled(MessagesResponse(None, hash)) && r.decryptCalls == []
    ensures r.result.Fulfilled? && r.result.value.messages.None? ==> r.result.value.hash == hash
    // a changed list whose senders are all known is delivered
    ensures fetched.Fulfilled? && fetched.value.History? && ItemHash.Hash(Ids(fetched.value.messages)) != hash
            && (forall i :: 0 <= i < |fetched.value.messages| ==> GetMessageSender(fetched.value.messages[i], fetched.value.users).Ok?) ==>
              r.result.Fulfilled? && r.result.value.messages.Some?
    ensures r.result.Fulfilled? && r.result.value.messages.Some? ==>
              && fetched.Fulfilled? && fetched.value.History?
              && r.result.value.hash == ItemHash.Hash(Ids(fetched.value.messages)) != hash
              && Normalised(fetched.value, r.result.value.messages.value, r.decryptCalls, ownId, GroupIdOf(peer, ownId), decrypt)
    ensures r.result.Rejected? && fetched.Fulfilled? && fetched.value.History? ==>
              && r.decryptCalls == []
              && r.result.fault.UnknownUser?
              && exists i :: 0 <= i < |fetched.value.messages| && GetMessageSender(fetched.value.messages[i], fetched.value.users).Err?
    // a changed list with an unknown sender throws before anything is decrypted
    ensures fetched.Fulfilled? && fetched.value.History? && ItemHash.Hash(Ids(fetched.value.messages)) != hash
            && (exists i :: 0 <= i < |fetched.value.messages| && GetMessageSender(fetched.value.messages[i], fetched.value.users).Err?) ==>
              r.result.Rejected? && r.decryptCalls == []
  {
    var request := HistoryRequest(InputPeerOf(peer), limit, hash);
    match fetched
    case Rejected(f) => MessagesRun(request, Rejected(f), [])
    case Pending => MessagesRun(request, Pending, [])
    case Fulfilled(NotModified) => MessagesRun(request, Rejected(NotIterable), [])
    case Fulfilled(h) =>
      var newHash := ItemHash.Hash(Ids(h.messages));
      if newHash == hash then MessagesRun(request, Fulfilled(MessagesResponse(None, hash)), [])
      else
        match Prepare(h.messages, h.users, ownId)
        case Err(f) => MessagesRun(request, Rejected(f), [])
        case Ok(prepared) =>
          var groupId := GroupIdOf(peer, ownId);
          PreparedIsNormalised(h, prepared, ownId, groupId, decrypt);
          MessagesRun(request, Fulfilled(MessagesResponse(Some(DecryptAll(prepared, ownId, groupId, decrypt)), newHash)), CallsFor(prepared, ownId, groupId))
  }

  /** Asking twice with the hash the first answer returned, over an
      unchanged history, gives the no-change answer with the same hash and
      no further decryption. */
  lemma PollTwiceUnchanged(peer: Peer, limit: nat, hash: nat, h: History, ownId: nat, decrypt: Decrypt)
    requires var first := GetMessages(peer, limit, hash, Fulfilled(h), ownId, decrypt);
             first.result.Fulfilled?
    ensures var first := GetMessages(peer, limit, hash, Fulfilled(h), ownId, decrypt);
            var second := GetMessages(peer, limit, first.result.value.hash, Fulfilled(h), ownId, decrypt);
            && second.result == Fulfilled(MessagesResponse(None, first.result.value.hash))
            && second.decryptCalls == []
  {
  }

  /** What `sendMessage` hands to `messages.sendMessage` (the random id is
      left out). */
  datatype SendRequest = SendRequest(peer: InputPeer, message: string)

  /** One call of `Message.encrypt`, with its arguments. */
  datatype EncryptCall = EncryptCall(text: string, ownId: nat, groupId: string)

  datatype SendRun = SendRun(encryptCall: EncryptCall, request: SendRequest, result: Promise<bool>)

  /** `sendMessage(peer, message)`: encrypts the text in the peer's group,
      sends the payload to the peer's address, and once the transport
      accepts it reports whether the payload was encrypted. */
  function SendMessage(peer: Peer, message: Message, ownId: nat, encrypt: Encrypt, sent: Promise<()>): (r: SendRun)
    ensures r.encryptCall == EncryptCall(message.text, ownId, GroupIdOf(peer, ownId))
    ensures r.request == SendRequest(InputPeerOf(peer), encrypt(message.text, ownId, GroupIdOf(peer, ownId)).0)
    ensures sent.Fulfilled? <==> r.result.Fulfilled?
    ensures sent.Fulfilled? ==> r.result.value == encrypt(message.text, ownId, GroupIdOf(peer, ownId)).1
    ensures sent.Rejected? ==> r.result == Rejected(sent.fault)
    ensures sent.Pending? ==> r.result.Pending?
  {
    var groupId := GroupIdOf(peer, ownId);
    var (payload, encrypted) := encrypt(message.text, ownId, groupId);
    var request := SendRequest(InputPeerOf(peer), payload);
    var result := match sent
      case Fulfilled(_) => Fulfilled(encrypted)
      case Rejected(f) => Rejected(f)
      case Pending => Pending;
    SendRun(EncryptCall(message.text, ownId, groupId), request, result)
  }

  /** Both ends of a direct chat use one key: what user `a` sends to peer
      `b` is decrypted by `b`, reading `a`'s message from its history, in the
      same group. So whenever decrypt undoes encrypt within a group, `b` reads
      exactly the text `a` sent. */
  lemma DirectChatReadsBack(a: nat, b: nat, peerB: Peer, peerA: Peer, out: Message, accepted: Promise<()>,
                            raw: RawMessage, users: seq<RawUser>, encrypt: Encrypt, decrypt: Decrypt)
    requires peerB.kind.UserPeer? && peerB.id == b
    requires peerA.kind.UserPeer? && peerA.id == a
    requires raw.kind == TextMessage(SendMessage(peerB, out, a, encrypt, accepted).request.message)
    requires a != b && raw.fromId == Some(PeerUser(a)) && !raw.post
    requires exists k :: 0 <= k < |users| && users[k].id == a
    requires ItemHash.Hash([raw.id]) != 0
    requires forall t: nat :: decrypt(encrypt(out.text, a, GroupIdOf(peerB, a)).0, t, b, GroupIdOf(peerB, a)) == (out.text, true)
    ensures var run := GetMessages(peerA, 25, 0, Fulfilled(History([raw], users)), b, decrypt);
            && run.result.Fulfilled?
            && run.result.value.messages == Some([Message(out.text, false, true, raw.id, raw.date, run.result.value.messages.value[0].from)])
  {
    DirectGroupIdSymmetricAndDecodable(a, b);
    assert GroupIdOf(peerA, b) == GroupIdOf(peerB, a);
    var run := GetMessages(peerA, 25, 0, Fulfilled(History([raw], users)), b, decrypt);
    assert Ids([raw]) == [raw.id];
    assert GetMessageSender(raw, users).Ok?;
    assert run.result.Fulfilled?;
    var ms := run.result.value.messages.value;
    assert |ms| == 1;
    assert ExtractMessage(raw, raw.id).text == encrypt(out.text, a, GroupIdOf(peerB, a)).0;
    assert (ms[0].text, ms[0].encrypted) == (out.text, true);
    assert ms == [Message(out.text, false, true, raw.id, raw.date, ms[0].from)];
  }
}

=== FILE: tab1.dfy ===
/** The dialog list tab (`Tab1Page`): it loads the dialogs, asks CloudMLS
    once per basic group or direct chat whether the conversation is
    encrypted, and opens a chat. */
module Tab1Page {

  import opened Base
  import opened Decimal
  import opened Records
  import opened Identity
  import Synchronizer

  /** How a CloudMLS probe (`Groups.update` / `Dialogs.update`) ends:
      resolved with the encryption flag, rejected, or never settled. */
  datatype Probe = ProbeResolved(encrypted: bool) | ProbeFailed | ProbePending

  /** `Groups.update("telegram", accountId, chatId, members)`. */
  type GroupsUpdate = (nat, nat, seq<string>) -> Probe
  /** `Dialogs.update("telegram", accountId, peerId, groupId)`. */
  type DialogsUpdate = (nat, nat, string) -> Probe

  /** A probe the page issues, with its arguments. */
  datatype ProbeCall =
    | GroupsProbe(accountId: nat, chatId: nat, members: seq<string>)
    | DialogsProbe(accountId: nat, peerId: nat, groupId: string)

  /** The dialogs shown once every probe that settles has settled, and the
      probes issued, in dialog order. */
  datatype Loaded = Loaded(dialogs: seq<Dialog>, probes: seq<ProbeCall>)

  /** The flag a dialog ends with: a resolved probe sets it, a rejected one
      clears it, a pending one leaves it. */
  function Settle(current: bool, p: Probe): (r: bool)
    ensures p.ProbeResolved? ==> r == p.encrypted
    ensures p.ProbeFailed? ==> !r
    ensures p.ProbePending? ==> r == current
  {
    match p
    case ProbeResolved(e) => e
    case ProbeFailed => false
    case ProbePending => current
  }

  /** The probe a dialog triggers, if any: basic groups by their member
      list, direct chats by the key both partners derive. */
  function ProbeFor(d: Dialog, ownId: nat): (r: Option<ProbeCall>)
    ensures r.None? <==> d.peer.kind.ChannelPeer?
    ensures d.peer.kind.ChatPeer? ==> r == Some(GroupsProbe(ownId, d.peer.id, d.peer.members))
    ensures d.peer.kind.UserPeer? ==> r == Some(DialogsProbe(ownId, d.peer.id, GroupIdOf(d.peer, ownId)))
  {
    match d.peer.kind
    case ChatPeer => Some(GroupsProbe(ownId, d.peer.id, d.peer.members))
    case UserPeer => Some(DialogsProbe(ownId, d.peer.id, DirectGroupId(ownId, d.peer.id)))
    case ChannelPeer => None
  }

  /** What CloudMLS answers to a probe. */
  function Answer(call: ProbeCall, groups: GroupsUpdate, dialogs: DialogsUpdate): Probe {
    match call
    case GroupsProbe(a, c, ms) => groups(a, c, ms)
    case DialogsProbe(a, p, g) => dialogs(a, p, g)
  }

  function Probed(d: Dialog, ownId: nat, groups: GroupsUpdate, dialogs: DialogsUpdate): Dialog {
    match ProbeFor(d, ownId)
    case None => d
    case Some(call) => d.(encrypted := Settle(d.encrypted, Answer(call, groups, dialogs)))
  }

  /** The probes of a dialog list, in order, channels skipped. */
  function ProbesOf(ds: seq<Dialog>, ownId: nat): (r: seq<ProbeCall>)
    ensures |r| <= |ds|
    ensures |r| == |ds| <==> forall i :: 0 <= i < |ds| ==> !ds[i].peer.kind.ChannelPeer?
    ensures forall c :: c in r ==> exists i :: 0 <= i < |ds| && ProbeFor(ds[i], ownId) == Some(c)
    decreases |ds|
  {
    if |ds| == 0 then []
    else
      var rest := ProbesOf(ds[1..], ownId);
      assert forall i :: 1 <= i < |ds| ==> ds[i] == ds[1..][i - 1];
      match ProbeFor(ds[0], ownId)
      case None => rest
      case Some(c) => [c] + rest
  }

  /** The probes of a list grow dialog by dialog: one more dialog adds its
      own probe, if it has one, after all the earlier ones. */
  lemma {:induction false} ProbesOfAppend(ds: seq<Dialog>, d: Dialog, ownId: nat)
    ensures ProbesOf(ds + [d], ownId) ==
              ProbesOf(ds, ownId) + (match ProbeFor(d, ownId) case Some(c) => [c] case None => [])
    decreases |ds|
  {
    if |ds| > 0 {
      assert (ds + [d])[1..] == ds[1..] + [d];
      ProbesOfAppend(ds[1..], d, ownId);
    }
  }

  /** `loadDialogs`: the fetched dialogs replace the shown ones, each with
      its probe's verdict applied; a fetch that fails or never settles
      leaves the shown dialogs as they were and probes nothing. */
  function LoadDialogs(shown: seq<Dialog>, fetched: Promise<seq<Dialog>>, ownId: nat,
                       groups: GroupsUpdate, dialogs: DialogsUpdate): (r: Loaded)
    ensures !fetched.Fulfilled? ==> r == Loaded(shown, [])
    ensures fetched.Fulfilled? ==>
              var ds := fetched.value;
              && r.probes == ProbesOf(ds, ownId)
              && |r.dialogs| == |ds|
              && forall i :: 0 <= i < |ds| ==>
                   && r.dialogs[i].peer == ds[i].peer && r.dialogs[i].topMessage == ds[i].topMessage
                   && (ds[i].peer.kind.ChatPeer? ==>
                         r.dialogs[i].encrypted == Settle(ds[i].encrypted, groups(ownId, ds[i].peer.id, ds[i].peer.members)))
                   && (ds[i].peer.kind.UserPeer? ==>
                         r.dialogs[i].encrypted == Settle(ds[i].encrypted, dialogs(ownId, ds[i].peer.id, GroupIdOf(ds[i].peer, ownId))))
                   && (ds[i].peer.kind.ChannelPeer? ==> r.dialogs[i] == ds[i])
  {
    match fetched
    case Fulfilled(ds) =>
      Loaded(seq(|ds|, i requires 0 <= i < |ds| => Probed(ds[i], ownId, groups, dialogs)), ProbesOf(ds, ownId))
    case _ => Loaded(shown, [])
  }

  /** Both partners of a direct chat probe under the same key, and it is
      the key the service encrypts and decrypts that chat with. */
  lemma DirectProbeKeyShared(a: nat, b: nat, pa: Peer, pb: Peer)
    requires pa.kind.UserPeer? && pa.id == b
    requires pb.kind.UserPeer? && pb.id == a
    ensures ProbeFor(Dialog(pa, DefaultMessage, false), a) == Some(DialogsProbe(a, b, GroupIdOf(pa, a)))
    ensures ProbeFor(Dialog(pb, DefaultMessage, false), b) == Some(DialogsProbe(b, a, GroupIdOf(pb, b)))
    ensures GroupIdOf(pa, a) == GroupIdOf(pb, b)
  {
    DirectGroupIdSymmetricAndDecodable(a, b);
  }

  /** Channels fetched through the synchronizer are never probed and stay
      unencrypted whatever CloudMLS answers. */
  lemma ChannelsStayPlain(answer: Synchronizer.DialogsAnswer, shown: seq<Dialog>, ownId: nat,
                          fullChat: Synchronizer.FullChat, decrypt: Synchronizer.Decrypt,
                          groups: GroupsUpdate, dialogs: DialogsUpdate, i: nat)
    requires var fetched := Synchronizer.GetDialogs(Fulfilled(answer), ownId, fullChat, decrypt);
             fetched.Fulfilled? && i < |fetched.value| && answer.dialogs[i].PeerChannel?
    ensures var fetched := Synchronizer.GetDialogs(Fulfilled(answer), ownId, fullChat, decrypt);
            var loaded := LoadDialogs(shown, fetched, ownId, groups, dialogs);
            i < |loaded.dialogs| && !loaded.dialogs[i].encrypted
  {
  }

  /** The route `openChat` navigates to, with the dialog passed along. */
  datatype Navigation = Navigation(route: seq<string>, dialog: Dialog)

  /** `openChat(dialog)`: navigate to `chat/<peer id>` carrying the dialog.
      The route is relative to the tab's own route, which is not modelled. */
  function OpenChat(d: Dialog): (r: Navigation)
    ensures |r.route| == 2 && r.route[0] == "chat" && r.dialog == d
  {
    Navigation(["chat", NatToString(d.peer.id)], d)
  }

  /** The id segment of the route reads back as the peer's id, so distinct
      peers get distinct routes. */
  lemma OpenChatRouteRoundTrip(d: Dialog, e: Dialog)
    ensures ToNumber(OpenChat(d).route[1]) == Num(d.peer.id)
    ensures OpenChat(d).route == OpenChat(e).route <==> d.peer.id == e.peer.id
  {
    NatToStringRoundTrip(d.peer.id);
    NatToStringRoundTrip(e.peer.id);
  }
}
